=== FILE: README.md ===
# onnx_ir convenience layer, modelled in Dafny

This project models the convenience functions of the ONNX IR
(`src/onnx_ir/_convenience/__init__.py`) and proves properties of the model:

- **Attribute binding**: `_infer_attribute_type`, `convert_attribute` and
  `convert_attributes` (module `Binder`). These turn native Python values into
  typed attribute records. Python's `isinstance` checks become a `Native`
  datatype with one constructor per kind of value. Decoding a protobuf tensor
  or graph goes through a `Codec` parameter.
- **Use-list rewiring**: `replace_all_uses_with` (module `Rewire`). It is built
  on an arena of values and nodes (module `Storage`). The arena invariant
  `Valid` says that every value's use set is exactly the set of input slots
  that reference it. `ReplaceInputWith` stands for `Node.replace_input_with`
  and keeps that invariant.
- **Name lookup**: `create_value_mapping` (module `ValueMapping`). The order of
  the recursive graph iterator is a parameter.
- **Node and value splice**: `replace_nodes_and_values` (module `Splice`). It
  runs over a `Container` (a graph or function; module `Containers`).
  `insert_after` and `remove(..., safe=True)` are modelled as functions with
  the contract the splice relies on.
- **Constant lookup**: `get_const_tensor` (module `Constants`). This covers the
  Constant-node path, the renaming of the tensor, and the shape and type
  propagation. The two logged warnings are returned as flags.

Exceptions are values. `Result` carries `ValueError` or `TypeError`, and a
splice that raises part-way returns the container as far as the completed
steps left it (`SpliceOutcome.Raised`). Python object identity becomes ids
into the arena. A mutation becomes a function from the old arena or container
to the new one.

In these places the model keeps what the code does:

- An empty list and an empty `Graph` both infer as `INTS`. `all(...)` over
  nothing is true, and a `Graph` is a `Sequence` of its nodes. The
  `convert_attributes` doctest shows the empty-graph case.
- The metadata copy in `replace_nodes_and_values` runs over the truncating
  `zip`. It happens before the length check in `replace_all_uses_with`
  raises, so a length mismatch still leaves the metadata of the paired prefix
  copied.
- The tensor built from a Constant node's `value` attribute is the
  attribute's own object. Renaming it to the value's name therefore also
  renames the tensor stored in the node, and the model writes the renamed
  tensor back into the node.

## Model

| member | source | states |
|---|---|---|
| Binder.InferAttributeType | src/onnx_ir/_convenience/__init__.py:51-99 | Inference fails only with TypeError. A sequence tag is inferred only for something Python can iterate (a list, a string or a graph). |
| Binder.InferIsFirstMatch | src/onnx_ir/_convenience/__init__.py:51-99 | The per-kind inference equals the chain of isinstance checks in the order `_infer_attribute_type` tests them, where the first check that holds decides the tag. |
| Binder.EmptySequencesAreInts | src/onnx_ir/_convenience/__init__.py:61-62 | An empty list and a graph without nodes both infer as INTS. A graph with nodes infers as GRAPH. |
| Binder.SequenceTagCharacterized | src/onnx_ir/_convenience/__init__.py:61-99 | A list infers only as a sequence tag, and as a given tag exactly when all its elements have that tag's kind and no earlier sequence check holds. TENSORS, GRAPHS and TYPE_PROTOS need a non-empty list. Inference fails exactly when the list is non-empty and no kind is shared by all its elements. |
| Binder.Bind | src/onnx_ir/_convenience/__init__.py:144-185 | Binding under a tag succeeds exactly for the tag/value pairs with a conversion (TENSOR needs a tensor, TENSORS and GRAPHS need an iterable, sparse and undefined tags have none). The record has the given name and tag and is not a reference. Failure is TypeError. The record holds the value itself for every tag except the tensor and graph tags. TENSOR holds the decoded tensor and GRAPH the decoded graph. TENSORS and GRAPHS hold a list of the same length whose i-th element is the i-th element decoded (TENSORS under the chosen decoding). |
| Binder.ConvertAttributeWith | src/onnx_ir/_convenience/__init__.py:102-185 | None needs an explicit type and gives an empty record. An existing Attr is returned unchanged exactly when its name and any explicit type agree, else ValueError. Any other value is bound under the explicit or inferred tag, with TypeError when that fails. A record made that way is exactly what `Bind` makes under that tag, so it holds the value itself unless the tag is a tensor or graph tag. |
| Binder.InferThenBindRoundTrip | src/onnx_ir/_convenience/__init__.py:141-185 | With the corrected TENSORS decoding (`ConvertAttribute`, that is `DecodeOnly`) and without an explicit type, binding succeeds exactly when inference does. The record then holds the inferred tag and the value with every encoded tensor and graph decoded. |
| Binder.TensorsBindingWrapsEncodedTensors | src/onnx_ir/_convenience/__init__.py:161-168 | As written, a TENSORS list holding an encoded tensor stores a TENSOR attribute record rather than the decoded tensor, so the round trip fails (see Findings). |
| Binder.ConvertAttributesWith | src/onnx_ir/_convenience/__init__.py:256-260 | On success, the result is the entries whose value is not None, each bound without an explicit type, in order. It fails exactly when some such entry fails to bind, and it reports the first failing entry's error. `mode` chooses the TENSORS decoding: `AsWritten` is the function as written, and `ConvertAttributes` is the corrected one (`DecodeOnly`). |
| Binder.PresentKeepsOrder | src/onnx_ir/_convenience/__init__.py:257-259 | Filtering out the None entries keeps the iteration order. The filter of a concatenation is the concatenation of the filters, and a single entry is kept exactly when its value is not None. |
| Binder.DecodingKeepsBatchOutcome | src/onnx_ir/_convenience/__init__.py:161-168 | The TENSORS decoding never decides whether a batch binds. The batch as written and the corrected batch succeed together, and when they fail they raise the same error. |
| Storage.ReplaceInputWith | src/onnx_ir/_convenience/__init__.py:316 | Repointing one input slot keeps the use sets exact. Only that slot and use sets change, and every other slot keeps its reference. |
| Rewire.ChainAvoids | src/onnx_ir/_convenience/__init__.py:314-316 | After the pairs are applied in order, no slot holds a replaced value unless that value is a replacement in the same or a later pair. |
| Rewire.ChainDisjoint | src/onnx_ir/_convenience/__init__.py:314-316 | With distinct old values that are never replacements, a slot holding the i-th old value ends with the i-th replacement, and any other slot is untouched. |
| Rewire.ChainFirstWins | src/onnx_ir/_convenience/__init__.py:314-316 | When no replacement is an old value, a slot holding an old value ends with the replacement from the first pair that names that value, even when the value is listed again later. |
| Rewire.Snapshot | src/onnx_ir/_convenience/__init__.py:315 | The snapshot of a use set lists exactly its members, each once. |
| Rewire.RedirectUses | src/onnx_ir/_convenience/__init__.py:315-316 | Every slot that held the old value holds the replacement, every other slot is unchanged, and the use invariant still holds. |
| Rewire.ReplaceAllUsesWith | src/onnx_ir/_convenience/__init__.py:263-316 | A single value counts as a one-element sequence. Unequal lengths raise ValueError, and only then. Otherwise each slot ends with the reference the pairs lead it to, the use invariant holds, only slots and use sets change, and a replaced value that no later pair names as a replacement has no uses left. |
| Rewire.ReplaceOneOutput | src/onnx_ir/_convenience/__init__.py:278-294 | In the docstring scenario, every former consumer of A's output reads D's output, and A's output has no uses left. |
| Containers.InsertAfter | src/onnx_ir/_convenience/__init__.py:399 | The new nodes go in order right after the anchor, and nothing else changes. It fails with ValueError exactly when the anchor is missing or a new node is listed twice or is already present. |
| Containers.InsertAfterExact | src/onnx_ir/_convenience/__init__.py:399 | `insert_after` rejects exactly when the anchor is missing or a new node is listed twice or already present, and otherwise yields the container whose order has the new nodes right after the anchor. |
| Containers.Remove | src/onnx_ir/_convenience/__init__.py:400 | Removal fails with ValueError exactly when a node is absent or one of its outputs is still consumed outside the removed set or is a container output. Otherwise the nodes leave the order, their input slots are emptied, and other nodes' slots are untouched. |
| ValueMapping.CreateValueMapping | src/onnx_ir/_convenience/__init__.py:319-359 | Initializer entries are kept. A key is either an initializer name or the non-empty name of a graph input or node input/output, and every such name gets a key. The key maps to the first value offered under that name. |
| Splice.CopyMetadata | src/onnx_ir/_convenience/__init__.py:381-388 | The copy changes only value metadata, and a value that is not a new value is unchanged. |
| Splice.CopyMetadataPairs | src/onnx_ir/_convenience/__init__.py:381-388 | With distinct new values disjoint from the old ones, each new value ends with its old value's type, shape, constant and name. |
| Splice.CopyMetadataIdempotent | src/onnx_ir/_convenience/__init__.py:381-388 | When the new values are distinct and disjoint from the old ones, copying the metadata a second time changes nothing. |
| Splice.ZipMap | src/onnx_ir/_convenience/__init__.py:393 | The mapping's keys are exactly the old values. A key listed more than once maps to the new value of its last pair. |
| Splice.SpliceValues | src/onnx_ir/_convenience/__init__.py:381-396 | Unequal value counts raise ValueError after the metadata copy over the truncated zip, and only then. Otherwise the arena equals the metadata copy except for input slots and use sets, and each slot of each node ends with the reference the pairs lead it to. The outputs are patched through the mapping of the pairs, so an output that is an old value becomes the new value of its last pair and other outputs stay. With separate values, the metadata is carried over and no slot reads an old value. |
| Splice.SpliceNodes | src/onnx_ir/_convenience/__init__.py:398-400 | Failures are ValueError. A rejected insertion leaves the container unchanged, and a rejected removal leaves it with the new nodes inserted. On success, the order is the input order with the new nodes placed right after the anchor and the old nodes then taken out, so every other node keeps its relative place. It holds the old and new nodes minus the removed ones, and the new nodes follow the anchor contiguously when neither is removed. Removed nodes consume nothing, and other nodes' slots are untouched. |
| Splice.SpliceNodesRaisesExactly | src/onnx_ir/_convenience/__init__.py:398-400 | The node steps raise exactly when one of these holds: the anchor is missing; a new node is listed twice or is already in the order; an old node is in neither the order nor the new nodes; or an old node's output is still read outside the removed nodes or is a container output. |
| Splice.ReplaceNodesAndValues | src/onnx_ir/_convenience/__init__.py:362-400 | The whole splice. It states the length-mismatch failure with its partial metadata copy. With equal counts it raises exactly when `insert_after` or `remove` rejects the nodes, judged on the container before the splice (an old node's output still read after the rewiring counts). The container it then reports carries the value steps' arena and outputs (metadata copied, slots rewired, outputs patched), with the new nodes inserted exactly when only the removal was rejected. On success, the arena equals the metadata copy except for input slots and use sets, and no other node or value field changes. Each slot of a node that stays reads what the pairs lead its old reference to; with separate values, a slot that read an old value reads the new value of that value's first pair. Inputs and initializers are unchanged. It states the output patch (last pair wins), the node order (the input order with the new nodes right after the anchor and the old nodes taken out), and that removed nodes are disconnected. With separate values, the metadata is carried over and no old value is read anywhere. |
| Constants.ElementType | src/onnx_ir/_convenience/__init__.py:460-471 | The value_* attribute names select FLOAT, INT64 and STRING elements, each for exactly its two names. |
| Constants.ConstantTensor | src/onnx_ir/_convenience/__init__.py:459-479 | An unsupported attribute name is a ValueError. A value_* attribute builds a tensor of that element type holding the attribute's data. A list gives dims `[n]` for its length n, and anything else gives the scalar dims `[]`, as `np.array` does. value gives the attribute's own tensor, and a non-tensor there is a TypeError. |
| Constants.FindConstTensor | src/onnx_ir/_convenience/__init__.py:429-481 | A value with a constant returns it. With no Constant producer in the default domain the result is None. A Constant node without exactly one output and one attribute raises ValueError. A reference attribute gives None. Otherwise the lookup fails exactly when building the tensor from the attribute fails, with that error, and the tensor found is the one built from the attribute, renamed after the value. No value or wiring changes. The producer's `value` attribute takes the renamed tensor, and no other node changes. |
| Constants.Propagate | src/onnx_ir/_convenience/__init__.py:482-502 | The value takes the tensor's shape and a tensor type of its element type, and nothing else changes. Each warning is raised exactly when the value had declared a different shape or type. |
| Constants.GetConstTensor | src/onnx_ir/_convenience/__init__.py:403-503 | Failures come only from a malformed Constant producer. A producer without exactly one output and one attribute raises ValueError, and a well-shaped one fails exactly when building its tensor fails. With no Constant producer, or a reference attribute, the result is None and nothing changes. Otherwise the tensor is the one built from the attribute, renamed after the value, and among the nodes only the producer's `value` attribute can change. No wiring and no constant value changes. Without a tensor or without propagation no value changes. With propagation, only the value's shape and type change, and the warning flags follow the propagation rule. |
| Constants.PropagationSettles | src/onnx_ir/_convenience/__init__.py:482-503 | A second lookup with propagation after the first finds the same tensor, changes nothing and warns about nothing. |

## Left out

- NumPy array construction: the model does not compute the `np.array` dtype casts (float32, int64, bytes) of a `value_*` attribute. A tensor records its element type and the raw attribute data.
- Constants.ConstantTensor: gives the shape of a flat attribute value only (a scalar or a vector). Nested lists, which NumPy would turn into higher-rank arrays, are not modelled, because attribute values are flat in ONNX.
- `StringTensor` versus `Tensor`: both are a `Tensor` whose element type is `String`, because the model does not distinguish tensor classes.
- Protobuf decoding (`serde.deserialize_tensor` and `serde.deserialize_graph`) is the `Codec` parameter, because the decoders are outside this file.
- Logging: each `logger.warning` call in `get_const_tensor` becomes a boolean flag in the result. Message text is not modelled, nor is the text of any exception message.
- The recursive graph iterator used by `create_value_mapping` is the `traversal` parameter. Which subgraphs it visits, and in what order, is defined in another module.
- `Node.replace_input_with`, `insert_after` and `remove` belong to the core IR classes, which are not part of this model. They are given contracts that match what the splice and the rewiring rely on.
- Python's `bool` being an `int` is not modelled: `Native` has no boolean kind.
- Protocol classes (`TensorProtocol`, `GraphProtocol`, `TypeProtocol`) and their concrete classes are one constructor each. Two objects that satisfy the same protocol are not distinguished.
- Object identity as a dictionary key in `dict(zip(old_values, new_values))` is id equality in the arena.
- Rewire.ReplaceAllUsesWith: requires every value and replacement to be in the arena. The arena holds every value and node, including those of nodes not yet inserted into a graph, so this excludes no Python call.
- Containers.InsertAfter: its failure rule (anchor missing, a new node listed twice or already present) is the contract assumed for `insert_after`, whose code is in the core IR classes and is not part of this model.
- Constants.AsTensor: its error rule (TypeError unless the attribute is a TENSOR attribute holding a tensor) is the contract assumed for `Attr.as_tensor`, whose code is in the core IR classes and is not part of this model.
- Splice.SpliceValues and Splice.ReplaceNodesAndValues: state the carried-over metadata and the absence of old reads only when the new values are distinct and disjoint from the old ones. With overlapping pairs, the result depends on the pair order. When an old value is listed twice, consumers take the new value of its first pair (the first `replace_all_uses_with` pair empties its uses), while the outputs take the new value of its last pair (`dict(zip(...))` keeps the last).

## Findings

| source | as written | input that shows it | evidently intended | confidence | as-written member | corrected member |
|---|---|---|---|---|---|---|
| src/onnx_ir/_convenience/__init__.py:165 | a TENSORS binding appends `AttrTensor(name, deserialize_tensor(t))` for each encoded tensor, so the list holds TENSOR attribute records instead of tensors | `convert_attribute("x", [onnx.TensorProto(...)])` | append the decoded tensor itself, as the GRAPHS branch (line 177) does for encoded graphs | high, not executed | Binder.TensorsBindingWrapsEncodedTensors | Binder.InferThenBindRoundTrip |

=== FILE: binder.dfy ===
/** The attribute binder: type inference over native values and binding of a
native value to a typed attribute record (`_infer_attribute_type`,
`convert_attribute`, `convert_attributes`). */
module Binder {
  import opened Outcomes
  import opened Types

  // ---------------------------------------------------------------------
  // What `isinstance` sees
  // ---------------------------------------------------------------------

  /** The scalar and object kinds the inference checks elements against. */
  datatype Kind = KInt | KFloat | KStr | KTensor | KGraph | KType

  predicate HasKind(v: Native, k: Kind) {
    match k
    case KInt => v.PInt?
    case KFloat => v.PFloat?
    case KStr => v.PStr?
    case KTensor => v.PTensor? || v.PTensorProto?
    case KGraph => v.PGraph? || v.PGraphProto?
    case KType => v.PTypeDesc?
  }

  /** The elements of `v` when `v` is a Python Sequence: a list or tuple, a
      string (its one-character strings) or a graph (its nodes). Anything else
      is not a Sequence and cannot be iterated. */
  function Elements(v: Native): (r: Option<seq<Native>>)
    ensures r.Some? <==> v.PSeq? || v.PStr? || v.PGraph?
    ensures v.PStr? ==> r.Some? && |r.value| == |v.s|
    ensures v.PGraph? ==> r.Some? && |r.value| == |v.graph.nodes|
  {
    match v
    case PSeq(items) => Some(items)
    case PStr(s) => Some(seq(|s|, i requires 0 <= i < |s| => PStr([s[i]])))
    case PGraph(g) => Some(seq(|g.nodes|, i requires 0 <= i < |g.nodes| => PNode(g.nodes[i])))
    case _ => None
  }

  /** Python's `all(isinstance(x, k) for x in xs)`; true of an empty `xs`. */
  predicate AllOfKind(xs: seq<Native>, k: Kind) {
    forall i :: 0 <= i < |xs| ==> HasKind(xs[i], k)
  }

  // ---------------------------------------------------------------------
  // Inference
  // ---------------------------------------------------------------------

  /** `isinstance(v, Sequence) and all(isinstance(x, k) for x in v)`. */
  predicate AllElementsOf(v: Native, k: Kind) {
    Elements(v).Some? && AllOfKind(Elements(v).value, k)
  }

  /** The inference as a chain of checks in the order `_infer_attribute_type` makes them;
      the first check that holds decides the tag. */
  function InferInSourceOrder(v: Native): Result<AttrType> {
    if HasKind(v, KInt) then Ok(INT)
    else if HasKind(v, KFloat) then Ok(FLOAT)
    else if HasKind(v, KStr) then Ok(STRING)
    else if v.PAttr? then Ok(v.attr.typ)
    else if AllElementsOf(v, KInt) then Ok(INTS)
    else if AllElementsOf(v, KFloat) then Ok(FLOATS)
    else if AllElementsOf(v, KStr) then Ok(STRINGS)
    else if HasKind(v, KTensor) then Ok(TENSOR)
    else if AllElementsOf(v, KTensor) then Ok(TENSORS)
    else if HasKind(v, KGraph) then Ok(GRAPH)
    else if AllElementsOf(v, KGraph) then Ok(GRAPHS)
    else if HasKind(v, KType) then Ok(TYPE_PROTO)
    else if AllElementsOf(v, KType) then Ok(TYPE_PROTOS)
    else Err(TypeError)
  }

  /** The tag a list's element kinds denote, first match among the sequence tags. */
  function SequenceTag(items: seq<Native>): Result<AttrType> {
    if AllOfKind(items, KInt) then Ok(INTS)
    else if AllOfKind(items, KFloat) then Ok(FLOATS)
    else if AllOfKind(items, KStr) then Ok(STRINGS)
    else if AllOfKind(items, KTensor) then Ok(TENSORS)
    else if AllOfKind(items, KGraph) then Ok(GRAPHS)
    else if AllOfKind(items, KType) then Ok(TYPE_PROTOS)
    else Err(TypeError)
  }

  /** `_infer_attribute_type`, one case per kind of native value. A graph is a
      sequence of nodes, so an empty graph is an (empty) sequence of ints. */
  function InferAttributeType(v: Native): (r: Result<AttrType>)
    ensures r.Err? ==> r.error == TypeError
    ensures r.Ok? && r.value in {INTS, FLOATS, STRINGS, TENSORS, GRAPHS, TYPE_PROTOS} && !v.PAttr? ==>
              Elements(v).Some?
  {
    match v
    case PInt(_) => Ok(INT)
    case PFloat(_) => Ok(FLOAT)
    case PStr(_) => Ok(STRING)
    case PAttr(a) => Ok(a.typ)
    case PSeq(items) => SequenceTag(items)
    case PTensor(_) => Ok(TENSOR)
    case PTensorProto(_) => Ok(TENSOR)
    case PGraph(g) => if |g.nodes| == 0 then Ok(INTS) else Ok(GRAPH)
    case PGraphProto(_) => Ok(GRAPH)
    case PTypeDesc(_) => Ok(TYPE_PROTO)
    case PNode(_) => Err(TypeError)
    case PNone => Err(TypeError)
  }

  /** No element of a non-empty graph has any kind: its elements are nodes. */
  lemma NodesHaveNoKind(g: GraphObj, k: Kind)
    requires |g.nodes| > 0
    ensures !AllOfKind(Elements(PGraph(g)).value, k)
  {
    assert !HasKind(Elements(PGraph(g)).value[0], k);
  }

  /** Inference is the first match over the checks in `_infer_attribute_type`'s order. */
  lemma InferIsFirstMatch(v: Native)
    ensures InferAttributeType(v) == InferInSourceOrder(v)
  {
    match v
    case PGraph(g) =>
      if |g.nodes| > 0 {
        NodesHaveNoKind(g, KInt);
        NodesHaveNoKind(g, KFloat);
        NodesHaveNoKind(g, KStr);
        NodesHaveNoKind(g, KTensor);
      }
    case _ =>
  }

  /** The two quirks of the inference: an empty list and an empty graph both
      come out as INTS, because `all` over nothing is true and a graph is a
      sequence. A non-empty graph is a GRAPH. */
  lemma EmptySequencesAreInts(name: Option<string>, g: GraphObj)
    ensures InferInSourceOrder(PSeq([])) == Ok(INTS)
    ensures InferInSourceOrder(PGraph(GraphObj(name, []))) == Ok(INTS)
    ensures |g.nodes| > 0 ==> InferInSourceOrder(PGraph(g)) == Ok(GRAPH)
  {
    InferIsFirstMatch(PSeq([]));
    InferIsFirstMatch(PGraph(GraphObj(name, [])));
    InferIsFirstMatch(PGraph(g));
  }

  /** A list infers as a sequence tag exactly when all its elements share
      the kind of that tag and no earlier sequence tag applies; it fails
      exactly when it is non-empty and no kind is shared by all elements. */
  lemma SequenceTagCharacterized(items: seq<Native>, t: AttrType)
    ensures InferAttributeType(PSeq(items)) == Ok(t) ==> t in {INTS, FLOATS, STRINGS, TENSORS, GRAPHS, TYPE_PROTOS}
    ensures InferAttributeType(PSeq(items)) == Ok(INTS) <==> AllOfKind(items, KInt)
    ensures InferAttributeType(PSeq(items)) == Ok(FLOATS) <==> AllOfKind(items, KFloat) && !AllOfKind(items, KInt)
    ensures InferAttributeType(PSeq(items)) == Ok(STRINGS) <==>
              AllOfKind(items, KStr) && !AllOfKind(items, KInt) && !AllOfKind(items, KFloat)
    ensures InferAttributeType(PSeq(items)) == Ok(TENSORS) <==>
              AllOfKind(items, KTensor) && |items| > 0
    ensures InferAttributeType(PSeq(items)) == Ok(GRAPHS) <==>
              AllOfKind(items, KGraph) && |items| > 0
    ensures InferAttributeType(PSeq(items)) == Ok(TYPE_PROTOS) <==>
              AllOfKind(items, KType) && |items| > 0
    ensures InferAttributeType(PSeq(items)).Err? <==>
              (|items| > 0 && forall k: Kind :: !AllOfKind(items, k))
  {
    if |items| > 0 {
      var x := items[0];
      if AllOfKind(items, KTensor) || AllOfKind(items, KGraph) || AllOfKind(items, KType) {
        assert !HasKind(x, KInt) && !HasKind(x, KFloat) && !HasKind(x, KStr);
      }
      if AllOfKind(items, KGraph) || AllOfKind(items, KType) {
        assert !HasKind(x, KTensor);
      }
      if AllOfKind(items, KType) {
        assert !HasKind(x, KGraph);
      }
    }
  }

  // ---------------------------------------------------------------------
  // Binding
  // ---------------------------------------------------------------------

  /** How a TENSORS binding stores an element that arrives encoded:
      `convert_attribute` as written wraps the decoded tensor in a TENSOR
      attribute record (`AsWritten`); storing the decoded tensor itself, as
      the GRAPHS binding does for graphs, is `DecodeOnly`. */
  datatype TensorsDecoding = AsWritten | DecodeOnly

  /** A tensor element of a TENSORS binding: encoded tensors are decoded;
      anything else passes through. */
  function TensorsElement(mode: TensorsDecoding, codec: Codec, name: string, x: Native): Native {
    match x
    case PTensorProto(p) =>
      var t := PTensor(codec.decodeTensor(p));
      if mode == AsWritten then PAttr(Attr(name, TENSOR, t, None)) else t
    case _ => x
  }

  /** A graph element of a GRAPHS binding: encoded graphs are decoded. */
  function GraphsElement(codec: Codec, x: Native): Native {
    match x
    case PGraphProto(p) => PGraph(codec.decodeGraph(p))
    case _ => x
  }

  /** The native value with every encoded tensor or graph decoded, at the top
      level and, for a list, element by element. */
  function Decoded(codec: Codec, v: Native): Native {
    match v
    case PSeq(items) => PSeq(seq(|items|, i requires 0 <= i < |items| => GraphsElement(codec, TensorsElement(DecodeOnly, codec, "", items[i]))))
    case PTensorProto(p) => PTensor(codec.decodeTensor(p))
    case PGraphProto(p) => PGraph(codec.decodeGraph(p))
    case _ => v
  }

  /** A tag/value pairing the binder has a conversion for. Only TENSOR checks
      its value; TENSORS and GRAPHS iterate theirs; the sparse tags and
      UNDEFINED have no conversion at all. */
  predicate Bindable(tag: AttrType, v: Native) {
    && tag !in {UNDEFINED, SPARSE_TENSOR, SPARSE_TENSORS}
    && (tag == TENSOR ==> HasKind(v, KTensor))
    && (tag in {TENSORS, GRAPHS} ==> Elements(v).Some?)
  }

  /** The tag a binding uses: the explicit one, else the inferred one. */
  function EffectiveTag(v: Native, explicit: Option<AttrType>): Result<AttrType> {
    if explicit.Some? then Ok(explicit.value) else InferAttributeType(v)
  }

  /** The attribute record for a value already known to pair with `tag`. */
  function Bind(mode: TensorsDecoding, codec: Codec, name: string, v: Native, tag: AttrType): (r: Result<Attr>)
    ensures r.Ok? <==> Bindable(tag, v)
    ensures r.Ok? ==> r.value.name == name && r.value.typ == tag && !r.value.IsRef()
    ensures r.Err? ==> r.error == TypeError
    // What the record holds: the value itself, or it decoded.
    ensures r.Ok? && tag !in {TENSOR, TENSORS, GRAPH, GRAPHS} ==> r.value.value == v
    ensures r.Ok? && tag == TENSOR ==> r.value.value == TensorsElement(DecodeOnly, codec, name, v)
    ensures r.Ok? && tag == GRAPH ==> r.value.value == GraphsElement(codec, v)
    ensures r.Ok? && tag == TENSORS ==>
              var xs := Elements(v).value;
              && r.value.value.PSeq? && |r.value.value.items| == |xs|
              && forall i :: 0 <= i < |xs| ==> r.value.value.items[i] == TensorsElement(mode, codec, name, xs[i])
    ensures r.Ok? && tag == GRAPHS ==>
              var xs := Elements(v).value;
              && r.value.value.PSeq? && |r.value.value.items| == |xs|
              && forall i :: 0 <= i < |xs| ==> r.value.value.items[i] == GraphsElement(codec, xs[i])
  {
    match tag
    case TENSOR =>
      if v.PTensor? then Ok(Attr(name, TENSOR, v, None))
      else if v.PTensorProto? then Ok(Attr(name, TENSOR, PTensor(codec.decodeTensor(v.proto)), None))
      else Err(TypeError)
    case TENSORS =>
      var xs := Elements(v);
      if xs.None? then Err(TypeError)
      else Ok(Attr(name, TENSORS, PSeq(seq(|xs.value|, i requires 0 <= i < |xs.value| => TensorsElement(mode, codec, name, xs.value[i]))), None))
    case GRAPH =>
      if v.PGraphProto? then Ok(Attr(name, GRAPH, PGraph(codec.decodeGraph(v.graphProto)), None))
      else Ok(Attr(name, GRAPH, v, None))
    case GRAPHS =>
      var xs := Elements(v);
      if xs.None? then Err(TypeError)
      else Ok(Attr(name, GRAPHS, PSeq(seq(|xs.value|, i requires 0 <= i < |xs.value| => GraphsElement(codec, xs.value[i]))), None))
    case UNDEFINED => Err(TypeError)
    case SPARSE_TENSOR => Err(TypeError)
    case SPARSE_TENSORS => Err(TypeError)
    case _ => Ok(Attr(name, tag, v, None))
  }

  /** `convert_attribute`, with the TENSORS element decoding chosen by `mode`. */
  function ConvertAttributeWith(mode: TensorsDecoding, codec: Codec, name: string, v: Native, explicit: Option<AttrType>): (r: Result<Attr>)
    // None: the type is mandatory and the record holds no value.
    ensures v.PNone? ==> (r.Ok? <==> explicit.Some?)
    ensures v.PNone? && r.Ok? ==> r.value == Attr(name, explicit.value, PNone, None)
    // An existing record is returned unchanged iff its name and (given) type agree.
    ensures v.PAttr? ==> (r.Ok? <==> v.attr.name == name && (explicit.None? || explicit.value == v.attr.typ))
    ensures v.PAttr? && r.Ok? ==> r.value == v.attr
    ensures (v.PNone? || v.PAttr?) && r.Err? ==> r.error == ValueError
    // Anything else: bound under the explicit tag, else the inferred one.
    ensures !v.PNone? && !v.PAttr? ==>
              (r.Ok? <==> EffectiveTag(v, explicit).Ok? && Bindable(EffectiveTag(v, explicit).value, v))
    ensures !v.PNone? && !v.PAttr? && r.Ok? ==>
              r.value.name == name && r.value.typ == EffectiveTag(v, explicit).value && !r.value.IsRef()
    ensures !v.PNone? && !v.PAttr? && r.Ok? ==> r == Bind(mode, codec, name, v, r.value.typ)
    ensures !v.PNone? && !v.PAttr? && r.Ok? && r.value.typ !in {TENSOR, TENSORS, GRAPH, GRAPHS} ==> r.value.value == v
    ensures !v.PNone? && !v.PAttr? && r.Err? ==> r.error == TypeError
  {
    if v.PNone? then
      if explicit.None? then Err(ValueError) else Ok(Attr(name, explicit.value, PNone, None))
    else if v.PAttr? then
      if v.attr.name != name then Err(ValueError)
      else if explicit.Some? && v.attr.typ != explicit.value then Err(ValueError)
      else Ok(v.attr)
    else
      var tag :- EffectiveTag(v, explicit);
      Bind(mode, codec, name, v, tag)
  }

  /** `convert_attribute` with the TENSORS decoding corrected. */
  function ConvertAttribute(codec: Codec, name: string, v: Native, explicit: Option<AttrType>): Result<Attr> {
    ConvertAttributeWith(DecodeOnly, codec, name, v, explicit)
  }

  /** Binding without an explicit type succeeds exactly for an Attr with the
      same name and for values the inference accepts; the record then holds the
      inferred tag and the value with its encoded parts decoded. */
  lemma InferThenBindRoundTrip(codec: Codec, name: string, v: Native)
    ensures !v.PNone? && !v.PAttr? ==>
              (ConvertAttribute(codec, name, v, None).Ok? <==> InferAttributeType(v).Ok?)
    ensures !v.PNone? && !v.PAttr? && InferAttributeType(v).Ok? ==>
              ConvertAttribute(codec, name, v, None) == Ok(Attr(name, InferAttributeType(v).value, Decoded(codec, v), None))
  {
    if !v.PNone? && !v.PAttr? && InferAttributeType(v).Ok? && v.PSeq? {
      InferThenBindList(codec, name, v.items);
    }
  }

  /** The list case of `InferThenBindRoundTrip`: the record holds the list
      with its encoded tensors or graphs decoded. */
  lemma InferThenBindList(codec: Codec, name: string, items: seq<Native>)
    requires InferAttributeType(PSeq(items)).Ok?
    ensures ConvertAttribute(codec, name, PSeq(items), None) ==
              Ok(Attr(name, InferAttributeType(PSeq(items)).value, Decoded(codec, PSeq(items)), None))
  {
    var v := PSeq(items);
    var t := InferAttributeType(v).value;
    var r := ConvertAttribute(codec, name, v, None).value;
    var d := Decoded(codec, v);
    if t == TENSORS {
      assert AllOfKind(items, KTensor);
      assert r.value.items == d.items;
    } else if t == GRAPHS {
      assert AllOfKind(items, KGraph);
      assert r.value.items == d.items;
    } else {
      assert AllOfKind(items, KInt) || AllOfKind(items, KFloat) || AllOfKind(items, KStr) || AllOfKind(items, KType);
      assert d.items == items;
    }
  }

  /** As written, a TENSORS binding of a list holding one encoded tensor stores
      a TENSOR attribute record instead of the decoded tensor, so the record
      does not hold the decoded input. */
  lemma TensorsBindingWrapsEncodedTensors(codec: Codec, name: string, p: TensorProto)
    ensures ConvertAttributeWith(AsWritten, codec, name, PSeq([PTensorProto(p)]), None)
            == Ok(Attr(name, TENSORS, PSeq([PAttr(Attr(name, TENSOR, PTensor(codec.decodeTensor(p)), None))]), None))
    ensures ConvertAttributeWith(AsWritten, codec, name, PSeq([PTensorProto(p)]), None)
            != Ok(Attr(name, TENSORS, Decoded(codec, PSeq([PTensorProto(p)])), None))
  {
    var v := PSeq([PTensorProto(p)]);
    assert InferAttributeType(v) == Ok(TENSORS) by {
      assert !HasKind(v.items[0], KInt);
      assert !HasKind(v.items[0], KFloat);
      assert !HasKind(v.items[0], KStr);
    }
    var stored := Bind(AsWritten, codec, name, v, TENSORS).value.value;
    assert stored.items == [PAttr(Attr(name, TENSOR, PTensor(codec.decodeTensor(p)), None))];
    var d := Decoded(codec, v);
    assert d.items[0] == PTensor(codec.decodeTensor(p));
  }

  // ---------------------------------------------------------------------
  // Batch binding
  // ---------------------------------------------------------------------

  /** The entries of a mapping whose value is not None, in iteration order. */
  function Present(entries: seq<(string, Native)>): (r: seq<(string, Native)>)
    ensures |r| <= |entries|
    ensures forall j :: 0 <= j < |r| ==> !r[j].1.PNone? && r[j] in entries
    ensures forall e :: e in entries && !e.1.PNone? ==> e in r
  {
    if |entries| == 0 then []
    else if entries[0].1.PNone? then Present(entries[1..])
    else [entries[0]] + Present(entries[1..])
  }

  /** `Present` keeps the entries' order: filtering a concatenation is the
      concatenation of the filtered parts, so together with its action on a
      single entry (kept exactly when its value is not None) it is the
      order-preserving filter. */
  lemma {:induction false} PresentKeepsOrder(a: seq<(string, Native)>, b: seq<(string, Native)>)
    ensures Present(a + b) == Present(a) + Present(b)
    ensures |a| == 1 ==> Present(a) == if a[0].1.PNone? then [] else a
    decreases |a|
  {
    if |a| > 0 {
      assert (a + b)[1..] == a[1..] + b;
      PresentKeepsOrder(a[1..], b);
    } else {
      assert a + b == b;
    }
    if |a| == 1 {
      assert Present(a[1..]) == [];
    }
  }

  /** The index of the first present entry the binder rejects, if any. */
  predicate FirstFailureAt(mode: TensorsDecoding, codec: Codec, es: seq<(string, Native)>, j: int) {
    && 0 <= j < |es|
    && ConvertAttributeWith(mode, codec, es[j].0, es[j].1, None).Err?
    && forall i :: 0 <= i < j ==> ConvertAttributeWith(mode, codec, es[i].0, es[i].1, None).Ok?
  }

  /** How the first failure of a list with a head relates to that of its tail. */
  lemma FirstFailureCons(mode: TensorsDecoding, codec: Codec, e: (string, Native), rest: seq<(string, Native)>)
    ensures ConvertAttributeWith(mode, codec, e.0, e.1, None).Err? ==> FirstFailureAt(mode, codec, [e] + rest, 0)
    ensures forall j :: FirstFailureAt(mode, codec, [e] + rest, j) ==>
              j == 0 || (j > 0 && FirstFailureAt(mode, codec, rest, j - 1))
    ensures forall j :: FirstFailureAt(mode, codec, rest, j) && ConvertAttributeWith(mode, codec, e.0, e.1, None).Ok? ==>
              FirstFailureAt(mode, codec, [e] + rest, j + 1)
  {
    var es := [e] + rest;
    forall j | FirstFailureAt(mode, codec, es, j) && j > 0
      ensures FirstFailureAt(mode, codec, rest, j - 1)
    {
      forall i | 0 <= i < j - 1
        ensures ConvertAttributeWith(mode, codec, rest[i].0, rest[i].1, None).Ok?
      {
        assert es[i + 1] == rest[i];
      }
    }
    forall j | FirstFailureAt(mode, codec, rest, j) && ConvertAttributeWith(mode, codec, e.0, e.1, None).Ok?
      ensures FirstFailureAt(mode, codec, es, j + 1)
    {
      forall i | 0 <= i < j + 1
        ensures ConvertAttributeWith(mode, codec, es[i].0, es[i].1, None).Ok?
      {
        if i > 0 {
          assert es[i] == rest[i - 1];
        }
      }
    }
  }

  /** Binds each of the given entries, in order, without an explicit type;
      the first rejected entry's exception propagates. */
  function BindEach(mode: TensorsDecoding, codec: Codec, es: seq<(string, Native)>): (r: Result<seq<Attr>>)
    ensures r.Ok? ==> |r.value| == |es| &&
                      forall j :: 0 <= j < |es| ==> ConvertAttributeWith(mode, codec, es[j].0, es[j].1, None) == Ok(r.value[j])
    ensures r.Err? <==> exists j :: FirstFailureAt(mode, codec, es, j)
    ensures forall j :: FirstFailureAt(mode, codec, es, j) ==>
              r == Err(ConvertAttributeWith(mode, codec, es[j].0, es[j].1, None).error)
  {
    if |es| == 0 then Ok([])
    else
      var e := es[0];
      assert es == [e] + es[1..];
      FirstFailureCons(mode, codec, e, es[1..]);
      var a :- ConvertAttributeWith(mode, codec, e.0, e.1, None);
      var rest :- BindEach(mode, codec, es[1..]);
      Ok([a] + rest)
  }

  /** `convert_attributes`, with the TENSORS element decoding chosen by
      `mode` (`AsWritten` is the function as written): binds every entry whose
      value is not None, in order, without an explicit type; the first
      rejected entry's exception propagates. */
  function ConvertAttributesWith(mode: TensorsDecoding, codec: Codec, entries: seq<(string, Native)>): (r: Result<seq<Attr>>)
    ensures var es := Present(entries);
            r.Ok? ==> |r.value| == |es| &&
                      forall j :: 0 <= j < |es| ==> ConvertAttributeWith(mode, codec, es[j].0, es[j].1, None) == Ok(r.value[j])
    ensures r.Err? ==> exists j :: FirstFailureAt(mode, codec, Present(entries), j)
    ensures (exists j :: FirstFailureAt(mode, codec, Present(entries), j)) ==> r.Err?
    ensures var es := Present(entries);
            forall j :: FirstFailureAt(mode, codec, es, j) ==>
              r == Err(ConvertAttributeWith(mode, codec, es[j].0, es[j].1, None).error)
  {
    BindEach(mode, codec, Present(entries))
  }

  /** `convert_attributes` with the TENSORS decoding corrected. */
  function ConvertAttributes(codec: Codec, entries: seq<(string, Native)>): Result<seq<Attr>> {
    ConvertAttributesWith(DecodeOnly, codec, entries)
  }

  /** The TENSORS decoding changes what a record holds, never whether a batch
      binds or which error it raises. */
  lemma DecodingKeepsBatchOutcome(codec: Codec, entries: seq<(string, Native)>)
    ensures ConvertAttributesWith(AsWritten, codec, entries).Ok? <==> ConvertAttributes(codec, entries).Ok?
    ensures ConvertAttributes(codec, entries).Err? ==>
              ConvertAttributesWith(AsWritten, codec, entries) == ConvertAttributes(codec, entries)
  {
    var es := Present(entries);
    forall j
      ensures FirstFailureAt(AsWritten, codec, es, j) <==> FirstFailureAt(DecodeOnly, codec, es, j)
    {
    }
    forall j | 0 <= j < |es|
      ensures ConvertAttributeWith(AsWritten, codec, es[j].0, es[j].1, None).Err? ==>
                ConvertAttributeWith(AsWritten, codec, es[j].0, es[j].1, None).error
                == ConvertAttributeWith(DecodeOnly, codec, es[j].0, es[j].1, None).error
    {
    }
  }
}

=== FILE: constants.dfy ===
/** `get_const_tensor`: the constant tensor behind a value, if there is one.

A value carries a constant either directly (`constValue`, as an initializer
does) or by being the single output of a `Constant` node of the default
domain, whose single attribute describes the tensor. Optionally the tensor's
shape and element type are written back onto the value; a mismatch with what
the value declared before is reported (`get_const_tensor` logs a warning). */
module Constants {
  import opened Outcomes
  import opened Types
  import opened Storage

  /** What a lookup yields: the tensor (or None), the arena afterwards, and
      whether the value's previous shape or type disagreed with the tensor's. */
  datatype Lookup = Lookup(tensor: Option<Tensor>, arena: Arena, shapeWarning: bool, typeWarning: bool)

  /** The element type a `value_*` attribute name selects. */
  function ElementType(attrName: string): (d: Option<DataType>)
    ensures d == Some(Float) <==> attrName == "value_float" || attrName == "value_floats"
    ensures d == Some(Int64) <==> attrName == "value_int" || attrName == "value_ints"
    ensures d == Some(String) <==> attrName == "value_string" || attrName == "value_strings"
    ensures d.Some? ==> d.value in {Float, Int64, String}
  {
    if attrName in {"value_float", "value_floats"} then Some(Float)
    else if attrName in {"value_int", "value_ints"} then Some(Int64)
    else if attrName in {"value_string", "value_strings"} then Some(String)
    else None
  }

  /** The product of the dimensions: the number of elements of a tensor. */
  function ElementCount(dims: seq<nat>): nat {
    if |dims| == 0 then 1 else dims[0] * ElementCount(dims[1..])
  }

  /** The dimensions of the array built from a flat attribute value: a list
      gives a vector of its length, anything else a scalar. */
  function ArrayDims(x: Native): (dims: seq<nat>)
    ensures |dims| <= 1
    ensures |dims| == 1 <==> x.PSeq?
    ensures x.PSeq? ==> dims[0] == |x.items|
    ensures ElementCount(dims) == if x.PSeq? then |x.items| else 1
  {
    if x.PSeq? then [|x.items|] else []
  }

  /** `Attr.as_tensor()`: the tensor of a TENSOR attribute; TypeError for any
      other attribute. */
  function AsTensor(attr: Attr): (r: Result<Tensor>)
    ensures r.Ok? <==> attr.typ == TENSOR && attr.value.PTensor?
    ensures r.Ok? ==> r.value == attr.value.tensor
    ensures r.Err? ==> r.error == TypeError
  {
    if attr.typ == TENSOR && attr.value.PTensor? then Ok(attr.value.tensor) else Err(TypeError)
  }

  /** The tensor a Constant node's attribute `attrName = attr` describes; the
      `value_*` forms build a new tensor named `name` from the attribute's
      native value, `value` hands back the attribute's own tensor. */
  function ConstantTensor(attrName: string, attr: Attr, name: Option<string>): (r: Result<Tensor>)
    ensures r.Err? <==> (ElementType(attrName).None? && attrName != "value") || (attrName == "value" && AsTensor(attr).Err?)
    ensures r.Err? ==> (r.error == ValueError <==> ElementType(attrName).None? && attrName != "value")
    ensures r.Ok? && ElementType(attrName).Some? ==>
              && r.value.dtype == ElementType(attrName).value
              && r.value.name == name
              && r.value.data == attr.value
              && ElementCount(r.value.dims) == (if attr.value.PSeq? then |attr.value.items| else 1)
              && |r.value.dims| <= 1
              && r.value.dims == (if attr.value.PSeq? then [|attr.value.items|] else [])
    ensures r.Ok? && attrName == "value" ==> PTensor(r.value) == attr.value
  {
    match ElementType(attrName)
    case Some(d) => Ok(Tensor(d, ArrayDims(attr.value), name, attr.value))
    case None => if attrName == "value" then AsTensor(attr) else Err(ValueError)
  }

  /** The declared shape of a tensor: all dimensions known. */
  function TensorShape(t: Tensor): (s: Shape)
    ensures |s| == |t.dims|
    ensures forall i :: 0 <= i < |s| ==> s[i] == Fixed(t.dims[i])
  {
    seq(|t.dims|, i requires 0 <= i < |t.dims| => Fixed(t.dims[i]))
  }

  /** `b` differs from `a` at most in value metadata and node attributes: no
      reference between values and nodes changes. */
  ghost predicate SameWiring(a: Arena, b: Arena) {
    && b.values.Keys == a.values.Keys
    && b.nodes.Keys == a.nodes.Keys
    && (forall x :: x in a.values ==> b.values[x].uses == a.values[x].uses && b.values[x].producer == a.values[x].producer)
    && (forall n :: n in a.nodes ==> b.nodes[n].inputs == a.nodes[n].inputs && b.nodes[n].outputs == a.nodes[n].outputs)
  }

  lemma SameWiringKeepsValid(a: Arena, b: Arena)
    requires Valid(a) && SameWiring(a, b)
    ensures Valid(b)
  {
    assert forall x, u :: x in b.values && u in b.values[x].uses ==> Refers(a, u, x);
  }

  /** The value's Constant producer, when it has one: a node of op type
      `Constant` in the default domain. */
  predicate ConstantProducer(a: Arena, v: ValueId)
    requires Valid(a) && v in a.values
  {
    && a.values[v].producer.Some?
    && a.values[v].producer.value in a.nodes
    && a.nodes[a.values[v].producer.value].opType == "Constant"
    && a.nodes[a.values[v].producer.value].domain == ""
  }

  /** The node producing `v`. */
  function ProducerOf(a: Arena, v: ValueId): Node
    requires Valid(a) && v in a.values && ConstantProducer(a, v)
  {
    a.nodes[a.values[v].producer.value]
  }

  /** A Constant producer with exactly one output and exactly one attribute. */
  predicate WellShapedConstant(a: Arena, v: ValueId)
    requires Valid(a) && v in a.values
  {
    ConstantProducer(a, v) && |ProducerOf(a, v).outputs| == 1 && |ProducerOf(a, v).attributes| == 1
  }

  /** The producer's one attribute is a reference to an attribute of an
      enclosing function. */
  predicate RefConstant(a: Arena, v: ValueId)
    requires Valid(a) && v in a.values
  {
    WellShapedConstant(a, v) && ProducerOf(a, v).attributes[0].1.IsRef()
  }

  /** The tensor the one attribute of a well-shaped Constant producer
      describes, named after the node's output. */
  function BuiltTensor(a: Arena, v: ValueId): Result<Tensor>
    requires Valid(a) && v in a.values && WellShapedConstant(a, v)
  {
    var node := ProducerOf(a, v);
    ConstantTensor(node.attributes[0].0, node.attributes[0].1, a.values[node.outputs[0]].name)
  }

  /** The lookup goes through the producer's own `value` tensor, so renaming
      the tensor renames the one the node holds. */
  predicate WritesBack(a: Arena, v: ValueId)
    requires Valid(a) && v in a.values
  {
    && a.values[v].constValue.None?
    && WellShapedConstant(a, v)
    && !RefConstant(a, v)
    && ProducerOf(a, v).attributes[0].0 == "value"
  }

  /** The arena in which the producer's `value` attribute holds `t`; nothing
      else differs. */
  function WrittenBack(a: Arena, v: ValueId, t: Tensor): (b: Arena)
    requires Valid(a) && v in a.values && WritesBack(a, v)
    ensures b.values == a.values && b.nodes.Keys == a.nodes.Keys
    ensures forall n :: n in a.nodes && n != a.values[v].producer.value ==> b.nodes[n] == a.nodes[n]
  {
    var p := a.values[v].producer.value;
    var node := a.nodes[p];
    a.(nodes := a.nodes[p := node.(attributes := [("value", node.attributes[0].1.(value := PTensor(t)))])])
  }

  /** The lookup part of `get_const_tensor`, before any propagation. A
      constant value is returned as it is; a value with no producer or a
      producer other than a Constant node has no constant; a Constant node
      must have exactly one output and one attribute (ValueError), and a
      reference attribute yields no constant. Otherwise the attribute builds
      the tensor, renamed after the value; when it is the node's own `value`
      tensor the node's attribute sees the new name too. */
  function FindConstTensor(a: Arena, v: ValueId): (r: Result<Lookup>)
    requires Valid(a) && v in a.values
    ensures a.values[v].constValue.Some? ==> r == Ok(Lookup(a.values[v].constValue, a, false, false))
    ensures a.values[v].constValue.None? && !ConstantProducer(a, v) ==> r == Ok(Lookup(None, a, false, false))
    ensures r.Err? ==> a.values[v].constValue.None? && ConstantProducer(a, v)
    ensures a.values[v].constValue.None? && ConstantProducer(a, v) && !WellShapedConstant(a, v) ==> r == Err(ValueError)
    ensures a.values[v].constValue.None? && RefConstant(a, v) ==> r == Ok(Lookup(None, a, false, false))
    ensures a.values[v].constValue.None? && WellShapedConstant(a, v) && !RefConstant(a, v) ==>
              && (r.Err? <==> BuiltTensor(a, v).Err?)
              && (r.Err? ==> r.error == BuiltTensor(a, v).error)
              && (r.Ok? ==> r.value.tensor == Some(BuiltTensor(a, v).value.(name := a.values[v].name)))
    ensures r.Ok? ==> Valid(r.value.arena) && SameWiring(a, r.value.arena) && r.value.arena.values == a.values
    ensures r.Ok? ==> !r.value.shapeWarning && !r.value.typeWarning
    ensures r.Ok? && r.value.tensor.Some? && a.values[v].constValue.None? ==> r.value.tensor.value.name == a.values[v].name
    // Only the producer's `value` attribute can change.
    ensures r.Ok? && !WritesBack(a, v) ==> r.value.arena == a
    ensures r.Ok? && WritesBack(a, v) ==> r.value.tensor.Some? && r.value.arena == WrittenBack(a, v, r.value.tensor.value)
  {
    var value := a.values[v];
    if value.constValue.Some? then Ok(Lookup(value.constValue, a, false, false))
    else if !ConstantProducer(a, v) then Ok(Lookup(None, a, false, false))
    else if !WellShapedConstant(a, v) then Err(ValueError)
    else if RefConstant(a, v) then Ok(Lookup(None, a, false, false))
    else
      var t :- BuiltTensor(a, v);
      var renamed := t.(name := value.name);
      var b := if WritesBack(a, v) then WrittenBack(a, v, renamed) else a;
      SameWiringKeepsValid(a, b);
      Ok(Lookup(Some(renamed), b, false, false))
  }

  /** The shape and type propagation: the value takes the tensor's shape and
      a tensor type of its element type; each warning is raised exactly when
      the value had declared something else before. */
  function Propagate(a: Arena, v: ValueId, t: Tensor): (r: Lookup)
    requires v in a.values
    ensures r.tensor == Some(t)
    ensures r.arena.nodes == a.nodes && r.arena.values.Keys == a.values.Keys
    ensures forall x :: x in a.values && x != v ==> r.arena.values[x] == a.values[x]
    ensures var before, after := a.values[v], r.arena.values[v];
            && after == before.(shape := after.shape, typ := after.typ)
            && after.shape == Some(TensorShape(t))
            && after.typ == Some(TensorType(t.dtype))
    ensures r.shapeWarning <==> a.values[v].shape.Some? && a.values[v].shape != Some(TensorShape(t))
    ensures r.typeWarning <==> a.values[v].typ.Some? && a.values[v].typ != Some(TensorType(t.dtype))
  {
    var value := a.values[v];
    var shapeWarning := value.shape.Some? && value.shape.value != TensorShape(t);
    var typeWarning := value.typ.Some? && value.typ.value != TensorType(t.dtype);
    var value' := value.(shape := Some(TensorShape(t)), typ := Some(TensorType(t.dtype)));
    Lookup(Some(t), a.(values := a.values[v := value']), shapeWarning, typeWarning)
  }

  /** `get_const_tensor(value, propagate_shape_type)`. */
  function GetConstTensor(a: Arena, v: ValueId, propagate: bool): (r: Result<Lookup>)
    requires Valid(a) && v in a.values
    // Failures come only from a malformed Constant producer, and each
    // malformed producer fails.
    ensures r.Err? ==> a.values[v].constValue.None? && ConstantProducer(a, v) && r.error in {ValueError, TypeError}
    ensures a.values[v].constValue.None? && ConstantProducer(a, v) && !WellShapedConstant(a, v) ==> r == Err(ValueError)
    ensures a.values[v].constValue.None? && WellShapedConstant(a, v) && !RefConstant(a, v) ==>
              && (r.Err? <==> BuiltTensor(a, v).Err?)
              && (r.Err? ==> r.error == BuiltTensor(a, v).error)
    // No Constant producer, or a reference attribute: no tensor and no change.
    ensures a.values[v].constValue.None? && (!ConstantProducer(a, v) || RefConstant(a, v)) ==>
              r == Ok(Lookup(None, a, false, false))
    // Otherwise the attribute's tensor, renamed after the value.
    ensures a.values[v].constValue.None? && WellShapedConstant(a, v) && !RefConstant(a, v) && r.Ok? ==>
              r.value.tensor == Some(BuiltTensor(a, v).value.(name := a.values[v].name))
    // Only the producer's `value` attribute can change among the nodes.
    ensures r.Ok? && !WritesBack(a, v) ==> r.value.arena.nodes == a.nodes
    ensures r.Ok? && WritesBack(a, v) ==>
              r.value.tensor.Some? && r.value.arena.nodes == WrittenBack(a, v, r.value.tensor.value).nodes
    ensures r.Ok? ==> Valid(r.value.arena) && SameWiring(a, r.value.arena)
    // A constant value is the answer itself, and no constant value is ever altered.
    ensures a.values[v].constValue.Some? ==> r.Ok? && r.value.tensor == a.values[v].constValue
    ensures r.Ok? ==> forall x :: x in a.values ==> r.value.arena.values[x].constValue == a.values[x].constValue
    // A tensor found through a Constant node carries the value's name.
    ensures r.Ok? && r.value.tensor.Some? && a.values[v].constValue.None? ==> r.value.tensor.value.name == a.values[v].name
    // Without a tensor, or without propagation, no value changes.
    ensures r.Ok? && r.value.tensor.None? ==> r.value.arena == a && !r.value.shapeWarning && !r.value.typeWarning
    ensures r.Ok? && !propagate ==> r.value.arena.values == a.values && !r.value.shapeWarning && !r.value.typeWarning
    // With propagation, the value takes the tensor's shape and type, and only those.
    ensures r.Ok? && propagate && r.value.tensor.Some? ==>
              var t, after := r.value.tensor.value, r.value.arena.values[v];
              && after.shape == Some(TensorShape(t))
              && after.typ == Some(TensorType(t.dtype))
              && after == a.values[v].(shape := after.shape, typ := after.typ)
              && (forall x :: x in a.values && x != v ==> r.value.arena.values[x] == a.values[x])
              && (r.value.shapeWarning <==> a.values[v].shape.Some? && a.values[v].shape != after.shape)
              && (r.value.typeWarning <==> a.values[v].typ.Some? && a.values[v].typ != after.typ)
  {
    var found :- FindConstTensor(a, v);
    if found.tensor.Some? && propagate then
      var r := Propagate(found.arena, v, found.tensor.value);
      SameWiringKeepsValid(a, r.arena);
      Ok(r)
    else Ok(found)
  }

  /** Looking a constant up a second time, after propagating, finds the same
      tensor, changes nothing and warns about nothing: the write-back settles. */
  lemma PropagationSettles(a: Arena, v: ValueId)
    requires Valid(a) && v in a.values
    ensures var r := GetConstTensor(a, v, true);
            r.Ok? ==> GetConstTensor(r.value.arena, v, true) == Ok(r.value.(shapeWarning := false, typeWarning := false))
  {
    var r := GetConstTensor(a, v, true);
    if r.Ok? && r.value.tensor.Some? {
      var found := FindConstTensor(a, v).value;
      var t := found.tensor.value;
      var b := r.value.arena;
      assert b == Propagate(found.arena, v, t).arena;
      FindAgain(a, v, found.arena, b, t);
      assert b.values[v].shape == Some(TensorShape(t)) && b.values[v].typ == Some(TensorType(t.dtype));
      assert Propagate(b, v, t).arena.values == b.values;
    }
  }

  /** The lookup does not depend on the value's shape and type, and a second
      lookup reproduces the renamed tensor, which the node already holds. */
  lemma FindAgain(a: Arena, v: ValueId, found: Arena, b: Arena, t: Tensor)
    requires Valid(a) && v in a.values
    requires FindConstTensor(a, v) == Ok(Lookup(Some(t), found, false, false))
    requires b == Propagate(found, v, t).arena
    ensures Valid(b) && FindConstTensor(b, v) == Ok(Lookup(Some(t), b, false, false))
  {
    SameWiringKeepsValid(a, b);
    var value := a.values[v];
    assert ConstantProducer(b, v) == ConstantProducer(a, v);
    if value.constValue.None? {
      var p := value.producer.value;
      var node := a.nodes[p];
      var (attrName, attr) := node.attributes[0];
      var out := node.outputs[0];
      assert b.values[out].name == a.values[out].name;
      if attrName == "value" {
        var attr' := attr.(value := PTensor(t));
        assert b.nodes[p] == node.(attributes := [(attrName, attr')]);
        assert AsTensor(attr') == Ok(t);
        assert b.nodes[p := b.nodes[p].(attributes := [(attrName, attr'.(value := PTensor(t)))])] == b.nodes;
      }
    }
  }
}

=== FILE: containers.dfy ===
/** A graph or function as seen by the splice: a node order, input and output
value lists and the initializer dictionary, over an arena of values and
nodes. `InsertAfter` and `Remove` are the container's own node-order
operations (`insert_after`, `remove(..., safe=True)`), given here with the
contract the splice relies on. */
module Containers {
  import opened Outcomes
  import opened Storage

  datatype Container = Container(
    arena: Arena,
    order: seq<NodeId>,
    inputs: seq<ValueId>,
    outputs: seq<ValueId>,
    initializers: map<string, ValueId>)

  predicate Distinct<T(==)>(s: seq<T>) {
    forall i, j :: 0 <= i < j < |s| ==> s[i] != s[j]
  }

  /** The arena invariant holds, the node order lists live nodes at most once,
      and the container's value lists name live values. */
  ghost predicate WellFormed(c: Container) {
    && Valid(c.arena)
    && Distinct(c.order)
    && (forall n :: n in c.order ==> n in c.arena.nodes)
    && (forall i :: 0 <= i < |c.inputs| ==> c.inputs[i] in c.arena.values)
    && (forall i :: 0 <= i < |c.outputs| ==> c.outputs[i] in c.arena.values)
    && (forall k :: k in c.initializers ==> c.initializers[k] in c.arena.values)
  }

  /** Rewiring input slots keeps a container well formed. */
  lemma RewiredWellFormed(c: Container, b: Arena)
    requires WellFormed(c) && Valid(b) && SameLayout(c.arena, b)
    ensures WellFormed(c.(arena := b))
  {
  }

  /** `s` with the elements of `xs` taken out, the rest in their order. */
  function Without(s: seq<NodeId>, xs: set<NodeId>): (r: seq<NodeId>)
    ensures |r| <= |s|
  {
    if |s| == 0 then []
    else
      var rest := Without(s[1..], xs);
      if s[0] in xs then rest else [s[0]] + rest
  }

  lemma {:induction false} WithoutMembers(s: seq<NodeId>, xs: set<NodeId>)
    ensures forall x :: x in Without(s, xs) <==> x in s && x !in xs
    decreases |s|
  {
    if |s| > 0 {
      WithoutMembers(s[1..], xs);
      assert forall x :: x in s <==> x == s[0] || x in s[1..];
    }
  }

  lemma {:induction false} WithoutAppend(s: seq<NodeId>, t: seq<NodeId>, xs: set<NodeId>)
    ensures Without(s + t, xs) == Without(s, xs) + Without(t, xs)
    decreases |s|
  {
    if |s| == 0 {
      assert s + t == t;
    } else {
      assert (s + t)[1..] == s[1..] + t;
      WithoutAppend(s[1..], t, xs);
    }
  }

  lemma {:induction false} WithoutNothing(s: seq<NodeId>, xs: set<NodeId>)
    requires forall i :: 0 <= i < |s| ==> s[i] !in xs
    ensures Without(s, xs) == s
    decreases |s|
  {
    if |s| > 0 {
      WithoutNothing(s[1..], xs);
    }
  }

  /** The position of `x` in `s`. */
  function IndexOf<T(==)>(s: seq<T>, x: T): (p: nat)
    requires x in s
    ensures p < |s| && s[p] == x
    ensures forall j :: 0 <= j < p ==> s[j] != x
  {
    if s[0] == x then 0 else 1 + IndexOf(s[1..], x)
  }

  /** Whether `insert_after` rejects its arguments: the anchor is not in the
      order, or a new node is listed twice or is already in the order. */
  predicate InsertRejected(order: seq<NodeId>, anchor: NodeId, news: seq<NodeId>) {
    anchor !in order || !Distinct(news) || exists i :: 0 <= i < |news| && news[i] in order
  }

  /** The order with `news` placed right after the first occurrence of the anchor. */
  function InsertedAt(order: seq<NodeId>, anchor: NodeId, news: seq<NodeId>): seq<NodeId>
    requires anchor in order
  {
    var p := IndexOf(order, anchor);
    order[..p + 1] + news + order[p + 1..]
  }

  /** `insert_after(anchor, news)`: the new nodes, in their order, go right
      after `anchor`. The anchor must be in the container, and a new node may
      not already be in it or be listed twice (ValueError). */
  function InsertAfter(c: Container, anchor: NodeId, news: seq<NodeId>): (r: Result<Container>)
    requires WellFormed(c)
    requires forall i :: 0 <= i < |news| ==> news[i] in c.arena.nodes
    ensures r.Err? <==> anchor !in c.order || !Distinct(news) || exists i :: 0 <= i < |news| && news[i] in c.order
    ensures r.Err? ==> r.error == ValueError
    ensures r.Ok? ==> WellFormed(r.value) && r.value == c.(order := r.value.order)
    ensures r.Ok? ==> forall n :: n in r.value.order <==> n in c.order || n in news
    ensures r.Ok? ==> Without(r.value.order, set n | n in news) == c.order
    ensures r.Ok? ==>
              exists p :: 0 <= p < |c.order| && c.order[p] == anchor &&
                r.value.order == c.order[..p + 1] + news + c.order[p + 1..]
  {
    if anchor !in c.order || !Distinct(news) || exists i :: 0 <= i < |news| && news[i] in c.order then
      Err(ValueError)
    else
      var p := IndexOf(c.order, anchor);
      var order := c.order[..p + 1] + news + c.order[p + 1..];
      InsertedOrder(c.order, p, news);
      Ok(c.(order := order))
  }

  /** `InsertAfter` rejects exactly under `InsertRejected`, and otherwise
      yields the container with the order `InsertedAt` describes. */
  lemma InsertAfterExact(c: Container, anchor: NodeId, news: seq<NodeId>)
    requires WellFormed(c)
    requires forall i :: 0 <= i < |news| ==> news[i] in c.arena.nodes
    ensures InsertAfter(c, anchor, news).Err? <==> InsertRejected(c.order, anchor, news)
    ensures InsertAfter(c, anchor, news).Ok? ==>
              anchor in c.order && InsertAfter(c, anchor, news).value == c.(order := InsertedAt(c.order, anchor, news))
  {
  }

  lemma DistinctConcat(s: seq<NodeId>, t: seq<NodeId>)
    requires Distinct(s) && Distinct(t)
    requires forall x :: x in s ==> x !in t
    ensures Distinct(s + t)
  {
    forall i, j | 0 <= i < j < |s + t|
      ensures (s + t)[i] != (s + t)[j]
    {
      if j >= |s| && i < |s| {
        assert (s + t)[i] in s && (s + t)[j] in t;
      }
    }
  }

  lemma SplitDisjoint(order: seq<NodeId>, k: nat)
    requires k <= |order| && Distinct(order)
    ensures Distinct(order[..k]) && Distinct(order[k..])
    ensures forall x :: x in order[..k] ==> x !in order[k..]
  {
    forall x | x in order[..k] ensures x !in order[k..] {
      var i :| 0 <= i < k && order[..k][i] == x;
      assert order[i] == x;
    }
  }

  lemma InsertedOrder(order: seq<NodeId>, p: nat, news: seq<NodeId>)
    requires p < |order| && Distinct(order) && Distinct(news)
    requires forall i :: 0 <= i < |news| ==> news[i] !in order
    ensures Distinct(order[..p + 1] + news + order[p + 1..])
    ensures Without(order[..p + 1] + news + order[p + 1..], set n | n in news) == order
  {
    SplitAt(order, p + 1);
    InsertedBetween(order[..p + 1], news, order[p + 1..]);
  }

  lemma SplitAt(order: seq<NodeId>, k: nat)
    requires k <= |order|
    ensures order[..k] + order[k..] == order
  {
  }

  lemma InsertedBetween(left: seq<NodeId>, news: seq<NodeId>, right: seq<NodeId>)
    requires Distinct(left + right) && Distinct(news)
    requires forall i :: 0 <= i < |news| ==> news[i] !in left + right
    ensures Distinct(left + news + right)
    ensures Without(left + news + right, set n | n in news) == left + right
  {
    NewsOutside(left, right, news);
    InsertedDistinct(left, news, right);
    InsertedWithout(left, news, right, set n | n in news);
  }

  lemma NewsOutside(left: seq<NodeId>, right: seq<NodeId>, news: seq<NodeId>)
    requires forall i :: 0 <= i < |news| ==> news[i] !in left + right
    ensures forall x :: x in news ==> x !in left && x !in right
  {
    forall x | x in news ensures x !in left && x !in right {
      var i :| 0 <= i < |news| && news[i] == x;
    }
  }

  lemma InsertedDistinct(left: seq<NodeId>, news: seq<NodeId>, right: seq<NodeId>)
    requires Distinct(left + right) && Distinct(news)
    requires forall x :: x in news ==> x !in left && x !in right
    ensures Distinct(left + news + right)
  {
    SplitDisjoint(left + right, |left|);
    assert (left + right)[..|left|] == left && (left + right)[|left|..] == right;
    DistinctConcat(left, news);
    DistinctConcat(left + news, right);
  }

  lemma InsertedWithout(left: seq<NodeId>, news: seq<NodeId>, right: seq<NodeId>, xs: set<NodeId>)
    requires forall x :: x in xs <==> x in news
    requires forall x :: x in left ==> x !in xs
    requires forall x :: x in right ==> x !in xs
    ensures Without(left + news + right, xs) == left + right
  {
    WithoutAppend(left + news, right, xs);
    WithoutAppend(left, news, xs);
    WithoutNothing(left, xs);
    WithoutNothing(right, xs);
    WithoutAll(news, xs);
  }

  lemma {:induction false} WithoutAll(s: seq<NodeId>, xs: set<NodeId>)
    requires forall i :: 0 <= i < |s| ==> s[i] in xs
    ensures Without(s, xs) == []
    decreases |s|
  {
    if |s| > 0 {
      WithoutAll(s[1..], xs);
    }
  }

  lemma {:induction false} WithoutKeepsDistinct(s: seq<NodeId>, xs: set<NodeId>)
    requires Distinct(s)
    ensures Distinct(Without(s, xs))
    decreases |s|
  {
    if |s| > 0 {
      WithoutKeepsDistinct(s[1..], xs);
      WithoutMembers(s[1..], xs);
      assert s[0] !in s[1..];
      if s[0] !in xs {
        DistinctConcat([s[0]], Without(s[1..], xs));
      }
    }
  }

  /** Removing nodes other than the anchor and the inserted ones keeps the
      inserted nodes, in order, right after the anchor. */
  lemma InsertedSurviveRemoval(order: seq<NodeId>, p: nat, news: seq<NodeId>, gone: set<NodeId>)
    requires p < |order| && order[p] !in gone
    requires forall i :: 0 <= i < |news| ==> news[i] !in gone
    ensures var r := Without(order[..p + 1] + news + order[p + 1..], gone);
            exists q :: 0 <= q && q + |news| < |r| && r[q] == order[p] && r[q + 1..q + 1 + |news|] == news
  {
    var before, right := order[..p], order[p + 1..];
    assert order[..p + 1] == before + [order[p]];
    WithoutAppend(before + [order[p]] + news, right, gone);
    WithoutAppend(before + [order[p]], news, gone);
    WithoutAppend(before, [order[p]], gone);
    WithoutNothing(news, gone);
    assert Without([order[p]], gone) == [order[p]];
    var r := Without(before, gone) + [order[p]] + news + Without(right, gone);
    var q := |Without(before, gone)|;
    assert r[q] == order[p] && r[q + 1..q + 1 + |news|] == news;
  }

  /** No output of a node in `gone` is a container output or is consumed by a
      node outside `gone`. */
  predicate SafeToRemove(c: Container, gone: set<NodeId>) {
    forall n, j :: n in gone && n in c.arena.nodes && 0 <= j < |c.arena.nodes[n].outputs| ==>
      OutputReleased(c, c.arena.nodes[n].outputs[j], gone)
  }

  predicate OutputReleased(c: Container, v: ValueId, gone: set<NodeId>) {
    && v !in c.outputs
    && (v in c.arena.values ==> forall u :: u in c.arena.values[v].uses ==> u.node in gone)
  }

  /** `remove(olds, safe=True)`: every node must be in the container and
      removable without leaving a dangling consumer or a dangling container
      output (ValueError otherwise, before any change). The nodes then leave
      the node order and their input slots are emptied. */
  function Remove(c: Container, olds: seq<NodeId>): (r: Result<Container>)
    requires WellFormed(c)
    ensures var gone := set n | n in olds;
            r.Err? <==> (exists i :: 0 <= i < |olds| && olds[i] !in c.order) || !SafeToRemove(c, gone)
    ensures r.Err? ==> r.error == ValueError
    ensures var gone := set n | n in olds;
            r.Ok? ==> && WellFormed(r.value)
                      && r.value.order == Without(c.order, gone)
                      && r.value == c.(arena := r.value.arena, order := r.value.order)
                      && SameLayout(c.arena, r.value.arena)
    ensures r.Ok? ==> forall m, j :: m in olds && 0 <= j < |r.value.arena.nodes[m].inputs| ==>
                        r.value.arena.nodes[m].inputs[j].None?
    ensures r.Ok? ==> forall m, j :: m in c.arena.nodes && m !in olds && 0 <= j < |c.arena.nodes[m].inputs| ==>
                        SameSlot(c.arena, r.value.arena, m, j)
  {
    var gone := set n | n in olds;
    if (exists i :: 0 <= i < |olds| && olds[i] !in c.order) || !SafeToRemove(c, gone) then
      Err(ValueError)
    else
      var arena := DisconnectNodes(c.arena, gone);
      WithoutKeepsDistinct(c.order, gone);
      WithoutMembers(c.order, gone);
      Ok(c.(arena := arena, order := Without(c.order, gone)))
  }
}

=== FILE: outcomes.dfy ===
/** Failure-compatible wrappers used across the model.

The convenience layer signals failure by raising one of two Python exception
classes; the model returns them as values instead. */
module Outcomes {

  /** The exception classes the convenience layer raises. */
  datatype Error = ValueError | TypeError

  /** Python's `None` next to a present value. */
  datatype Option<+T> = None | Some(value: T)

  /** Either a value or the exception that was raised instead. */
  datatype Result<+T> = Ok(value: T) | Err(error: Error) {

    predicate IsFailure() {
      Err?
    }

    function PropagateFailure<U>(): Result<U>
      requires Err?
    {
      Err(error)
    }

    function Extract(): T
      requires Ok?
    {
      value
    }
  }
}

=== FILE: rewire.dfy ===
/** Use-list rewiring: `replace_all_uses_with`.

Each consumer of an old value is repointed at its replacement through the
storage primitive `ReplaceInputWith`, iterating over a snapshot of the use set
taken before any slot changes. Pairs are handled in order, so a replacement
that is itself replaced by a later pair passes its consumers on: the
reference a slot ends with is given by `Chain`. */
module Rewire {
  import opened Outcomes
  import opened Storage

  /** An argument that is a single value or a sequence of values. */
  datatype ValueArg = One(single: ValueId) | Many(items: seq<ValueId>)

  /** A single value is treated as a one-element sequence. */
  function AsSequence(x: ValueArg): seq<ValueId> {
    match x
    case One(v) => [v]
    case Many(vs) => vs
  }

  /** One pair applied to a slot: a reference to `v` becomes one to `r`. */
  function Redirect(x: Option<ValueId>, v: ValueId, r: ValueId): Option<ValueId> {
    if x == Some(v) then Some(r) else x
  }

  /** The reference a slot holding `x` ends with once the pairs `(vs[i], rs[i])`
      are applied in order. */
  function Chain(vs: seq<ValueId>, rs: seq<ValueId>, x: Option<ValueId>): Option<ValueId>
    requires |vs| == |rs|
    decreases |vs|
  {
    if |vs| == 0 then x
    else Redirect(Chain(vs[..|vs| - 1], rs[..|rs| - 1], x), vs[|vs| - 1], rs[|rs| - 1])
  }

  /** Once `vs[i]` has been replaced, no slot references it again unless a
      later (or the same) pair names it as a replacement. */
  lemma {:induction false} ChainAvoids(vs: seq<ValueId>, rs: seq<ValueId>, i: int, x: Option<ValueId>)
    requires |vs| == |rs| && 0 <= i < |vs|
    requires vs[i] !in rs[i..]
    ensures Chain(vs, rs, x) != Some(vs[i])
    decreases |vs|
  {
    var last := |vs| - 1;
    assert rs[last] in rs[i..];
    if i < last {
      assert rs[..last][i..] == rs[i..last];
      ChainAvoids(vs[..last], rs[..last], i, x);
    }
  }

  /** No earlier element of `s` equals `s[i]`. */
  predicate FirstOf(s: seq<ValueId>, i: nat)
    requires i < |s|
  {
    forall j :: 0 <= j < i ==> s[j] != s[i]
  }

  /** A slot referencing none of the old values is left alone. */
  lemma {:induction false} ChainUntouched(vs: seq<ValueId>, rs: seq<ValueId>, x: Option<ValueId>)
    requires |vs| == |rs|
    requires forall i :: 0 <= i < |vs| ==> x != Some(vs[i])
    ensures Chain(vs, rs, x) == x
    decreases |vs|
  {
    if |vs| > 0 {
      ChainUntouched(vs[..|vs| - 1], rs[..|rs| - 1], x);
    }
  }

  /** When no replacement is itself an old value, a slot referencing an old
      value ends at the replacement of the first pair that names it: that
      pair takes every use, and later pairs for the same value find none. */
  lemma {:induction false} ChainFirstWins(vs: seq<ValueId>, rs: seq<ValueId>, i: nat)
    requires |vs| == |rs| && i < |vs| && FirstOf(vs, i)
    requires forall k, j :: 0 <= k < |vs| && 0 <= j < |rs| ==> vs[k] != rs[j]
    ensures Chain(vs, rs, Some(vs[i])) == Some(rs[i])
    decreases |vs|
  {
    var last := |vs| - 1;
    if i < last {
      ChainFirstWins(vs[..last], rs[..last], i);
      assert rs[i] != vs[last];
    } else {
      ChainUntouched(vs[..last], rs[..last], Some(vs[i]));
    }
  }

  /** With distinct old values that are never used as replacements, a slot
      referencing `vs[i]` ends at `rs[i]`, and any other slot is untouched. */
  lemma {:induction false} ChainDisjoint(vs: seq<ValueId>, rs: seq<ValueId>, x: Option<ValueId>)
    requires |vs| == |rs|
    requires forall i, j :: 0 <= i < j < |vs| ==> vs[i] != vs[j]
    requires forall i, j :: 0 <= i < |vs| && 0 <= j < |rs| ==> vs[i] != rs[j]
    ensures forall i :: 0 <= i < |vs| && x == Some(vs[i]) ==> Chain(vs, rs, x) == Some(rs[i])
    ensures (forall i :: 0 <= i < |vs| ==> x != Some(vs[i])) ==> Chain(vs, rs, x) == x
    decreases |vs|
  {
    if |vs| > 0 {
      var last := |vs| - 1;
      ChainDisjoint(vs[..last], rs[..last], x);
      forall i | 0 <= i < |vs| && x == Some(vs[i])
        ensures Chain(vs, rs, x) == Some(rs[i])
      {
        if i < last {
          assert Chain(vs[..last], rs[..last], x) == Some(rs[i]);
        }
      }
    }
  }

  /** `tuple(value.uses())`: the use set listed as a sequence, each use once,
      before any slot is changed. */
  method Snapshot(uses: set<Use>) returns (s: seq<Use>)
    ensures forall u :: u in s <==> u in uses
    ensures forall i, j :: 0 <= i < j < |s| ==> s[i] != s[j]
  {
    s := [];
    var rest := uses;
    while rest != {}
      invariant rest <= uses
      invariant forall u :: u in s <==> u in uses && u !in rest
      invariant forall i, j :: 0 <= i < j < |s| ==> s[i] != s[j]
      decreases rest
    {
      var u :| u in rest;
      s := s + [u];
      rest := rest - {u};
    }
  }

  /** The slots in `done` of `a`'s nodes now hold `r`; every other slot is as in `a`. */
  ghost predicate RedirectedSoFar(a: Arena, b: Arena, done: set<Use>, r: ValueId)
    requires SameLayout(a, b)
  {
    forall n, k :: n in a.nodes && 0 <= k < |a.nodes[n].inputs| ==>
      b.nodes[n].inputs[k] == if Use(n, k) in done then Some(r) else a.nodes[n].inputs[k]
  }

  lemma RedirectStep(a: Arena, b: Arena, b': Arena, done: set<Use>, u: Use, r: ValueId)
    requires SameLayout(a, b) && SameLayout(b, b') && SameLayout(a, b')
    requires RedirectedSoFar(a, b, done, r)
    requires u.node in b.nodes && u.slot < |b.nodes[u.node].inputs|
    requires b'.nodes[u.node].inputs[u.slot] == Some(r)
    requires forall m, j :: m in b.nodes && 0 <= j < |b.nodes[m].inputs| && (m != u.node || j != u.slot) ==> SameSlot(b, b', m, j)
    ensures RedirectedSoFar(a, b', done + {u}, r)
  {
    forall n, k | n in a.nodes && 0 <= k < |a.nodes[n].inputs|
      ensures b'.nodes[n].inputs[k] == if Use(n, k) in done + {u} then Some(r) else a.nodes[n].inputs[k]
    {
      if n != u.node || k != u.slot {
        assert SameSlot(b, b', n, k);
      }
    }
  }

  /** The first `j` slots of `listed` of `a`'s nodes are repointed at `r` in `b`. */
  ghost predicate Progress(a: Arena, b: Arena, listed: seq<Use>, j: int, r: ValueId) {
    && 0 <= j <= |listed|
    && Valid(b) && SameLayout(a, b)
    && RedirectedSoFar(a, b, set i | 0 <= i < j :: listed[i], r)
  }

  /** One step of the inner loop: the next listed slot is repointed at `r`. */
  function Advance(a: Arena, b: Arena, listed: seq<Use>, j: nat, r: ValueId): (b': Arena)
    requires Progress(a, b, listed, j, r) && j < |listed| && r in a.values
    requires listed[j].node in a.nodes && listed[j].slot < |a.nodes[listed[j].node].inputs|
    ensures Progress(a, b', listed, j + 1, r)
  {
    var u := listed[j];
    var b' := ReplaceInputWith(b, u.node, u.slot, Some(r));
    SameLayoutTransitive(a, b, b');
    RedirectStep(a, b, b', set i | 0 <= i < j :: listed[i], u, r);
    assert (set i | 0 <= i < j + 1 :: listed[i]) == (set i | 0 <= i < j :: listed[i]) + {u};
    b'
  }

  /** The inner loop for one pair: every use of `v`, listed before any slot
      changes, is repointed at `r`. */
  method RedirectUses(a: Arena, v: ValueId, r: ValueId) returns (b: Arena)
    requires Valid(a) && v in a.values && r in a.values
    ensures Valid(b) && SameLayout(a, b)
    ensures forall n, k :: n in a.nodes && 0 <= k < |a.nodes[n].inputs| ==>
              b.nodes[n].inputs[k] == Redirect(a.nodes[n].inputs[k], v, r)
  {
    var snapshot := Snapshot(a.values[v].uses);
    b := a;
    var j := 0;
    while j < |snapshot|
      invariant Progress(a, b, snapshot, j, r)
    {
      assert Refers(a, snapshot[j], v);
      b := Advance(a, b, snapshot, j, r);
      j := j + 1;
    }
    RedirectedAll(a, b, v, r, set i | 0 <= i < j :: snapshot[i]);
  }

  /** Once every use of `v` has been repointed, each slot holds what one
      redirection of `v` to `r` gives. */
  lemma RedirectedAll(a: Arena, b: Arena, v: ValueId, r: ValueId, done: set<Use>)
    requires Valid(a) && v in a.values && SameLayout(a, b)
    requires forall u :: u in done <==> u in a.values[v].uses
    requires RedirectedSoFar(a, b, done, r)
    ensures forall n, k :: n in a.nodes && 0 <= k < |a.nodes[n].inputs| ==>
              b.nodes[n].inputs[k] == Redirect(a.nodes[n].inputs[k], v, r)
  {
    forall n, k | n in a.nodes && 0 <= k < |a.nodes[n].inputs|
      ensures b.nodes[n].inputs[k] == Redirect(a.nodes[n].inputs[k], v, r)
    {
      UsesExact(a, v, Use(n, k));
    }
  }

  /** `replace_all_uses_with`. Unequal lengths raise ValueError before
      anything changes. Otherwise every input slot ends with the reference the
      pairs lead it to, nothing but input slots and use sets changes, the use
      invariant still holds, and a replaced value that no later pair names as
      a replacement has no uses left. */
  method ReplaceAllUsesWith(a: Arena, values: ValueArg, replacements: ValueArg) returns (res: Result<Arena>)
    requires Valid(a)
    requires forall v :: v in AsSequence(values) ==> v in a.values
    requires forall v :: v in AsSequence(replacements) ==> v in a.values
    ensures res.Err? <==> |AsSequence(values)| != |AsSequence(replacements)|
    ensures res.Err? ==> res.error == ValueError
    ensures res.Ok? ==> Valid(res.value) && SameLayout(a, res.value)
    ensures var vs, rs := AsSequence(values), AsSequence(replacements);
            res.Ok? ==> forall n, k :: n in a.nodes && 0 <= k < |a.nodes[n].inputs| ==>
              res.value.nodes[n].inputs[k] == Chain(vs, rs, a.nodes[n].inputs[k])
    ensures var vs, rs := AsSequence(values), AsSequence(replacements);
            res.Ok? ==> forall i :: 0 <= i < |vs| && vs[i] !in rs[i..] ==> res.value.values[vs[i]].uses == {}
  {
    var vs, rs := AsSequence(values), AsSequence(replacements);
    if |vs| != |rs| {
      return Err(ValueError);
    }
    var b := ApplyPairs(a, vs, rs);
    res := Ok(b);
  }

  /** The outer loop: the pairs, in order, each through `RedirectUses`. */
  method ApplyPairs(a: Arena, vs: seq<ValueId>, rs: seq<ValueId>) returns (b: Arena)
    requires Valid(a) && |vs| == |rs|
    requires forall v :: v in vs ==> v in a.values
    requires forall v :: v in rs ==> v in a.values
    ensures Valid(b) && SameLayout(a, b)
    ensures forall n, k :: n in a.nodes && 0 <= k < |a.nodes[n].inputs| ==>
              b.nodes[n].inputs[k] == Chain(vs, rs, a.nodes[n].inputs[k])
    ensures forall i :: 0 <= i < |vs| && vs[i] !in rs[i..] ==> b.values[vs[i]].uses == {}
  {
    b := a;
    var i := 0;
    while i < |vs|
      invariant Applied(a, b, vs, rs, i)
    {
      b := ApplyOne(a, b, vs, rs, i);
      i := i + 1;
    }
    AllApplied(a, b, vs, rs);
  }

  /** One iteration of the outer loop: pair `i` is applied. */
  method ApplyOne(a: Arena, b: Arena, vs: seq<ValueId>, rs: seq<ValueId>, i: nat) returns (b': Arena)
    requires Applied(a, b, vs, rs, i) && i < |vs| && vs[i] in a.values && rs[i] in a.values
    ensures Applied(a, b', vs, rs, i + 1)
  {
    b' := RedirectUses(b, vs[i], rs[i]);
    ChainStep(a, b, b', vs, rs, i);
  }

  /** The first `i` pairs have been applied to `a`'s slots, giving `b`. */
  ghost predicate Applied(a: Arena, b: Arena, vs: seq<ValueId>, rs: seq<ValueId>, i: int) {
    && |vs| == |rs| && 0 <= i <= |vs|
    && Valid(b) && SameLayout(a, b)
    && forall n, k :: n in a.nodes && 0 <= k < |a.nodes[n].inputs| ==>
         b.nodes[n].inputs[k] == Chain(vs[..i], rs[..i], a.nodes[n].inputs[k])
  }

  /** One more pair applied extends the chain by that pair. */
  lemma ChainStep(a: Arena, b: Arena, b': Arena, vs: seq<ValueId>, rs: seq<ValueId>, i: nat)
    requires Applied(a, b, vs, rs, i) && i < |vs|
    requires Valid(b') && SameLayout(b, b')
    requires forall n, k :: n in b.nodes && 0 <= k < |b.nodes[n].inputs| ==>
               b'.nodes[n].inputs[k] == Redirect(b.nodes[n].inputs[k], vs[i], rs[i])
    ensures Applied(a, b', vs, rs, i + 1)
  {
    assert vs[..i + 1][..i] == vs[..i];
    assert rs[..i + 1][..i] == rs[..i];
    SameLayoutTransitive(a, b, b');
  }

  /** Once every pair is applied, a replaced value that no later pair names
      as a replacement has no uses left. */
  lemma AllApplied(a: Arena, b: Arena, vs: seq<ValueId>, rs: seq<ValueId>)
    requires Applied(a, b, vs, rs, |vs|)
    requires forall v :: v in vs ==> v in a.values
    ensures Valid(b) && SameLayout(a, b)
    ensures forall n, k :: n in a.nodes && 0 <= k < |a.nodes[n].inputs| ==>
              b.nodes[n].inputs[k] == Chain(vs, rs, a.nodes[n].inputs[k])
    ensures forall i :: 0 <= i < |vs| && vs[i] !in rs[i..] ==> b.values[vs[i]].uses == {}
  {
    assert vs[..|vs|] == vs && rs[..|rs|] == rs;
    forall j | 0 <= j < |vs| && vs[j] !in rs[j..]
      ensures b.values[vs[j]].uses == {}
    {
      ReplacedUnread(a, b, vs, rs, j);
      UnreadUnused(b, vs[j]);
    }
  }

  /** After all pairs, no slot holds a replaced value that no later pair
      names as a replacement. */
  lemma ReplacedUnread(a: Arena, b: Arena, vs: seq<ValueId>, rs: seq<ValueId>, i: nat)
    requires |vs| == |rs| && SameLayout(a, b) && i < |vs| && vs[i] !in rs[i..]
    requires forall n, k :: n in a.nodes && 0 <= k < |a.nodes[n].inputs| ==>
               b.nodes[n].inputs[k] == Chain(vs, rs, a.nodes[n].inputs[k])
    ensures forall n, k :: n in b.nodes && 0 <= k < |b.nodes[n].inputs| ==> b.nodes[n].inputs[k] != Some(vs[i])
  {
    forall n, k | n in b.nodes && 0 <= k < |b.nodes[n].inputs|
      ensures b.nodes[n].inputs[k] != Some(vs[i])
    {
      ChainAvoids(vs, rs, i, a.nodes[n].inputs[k]);
    }
  }

  /** Under the use invariant, a value no slot holds has no uses. */
  lemma UnreadUnused(b: Arena, v: ValueId)
    requires Valid(b) && v in b.values
    requires forall n, k :: n in b.nodes && 0 <= k < |b.nodes[n].inputs| ==> b.nodes[n].inputs[k] != Some(v)
    ensures b.values[v].uses == {}
  {
    forall u: Use
      ensures u !in b.values[v].uses
    {
      UsesExact(b, v, u);
    }
  }

  /** The doctest scenario A -> {B, C}: after replacing A's output with D's,
      both consumers read D's output and A's output has no uses. */
  lemma ReplaceOneOutput(a: Arena, out: ValueId, repl: ValueId, b: Arena)
    requires Valid(a) && out in a.values && repl in a.values && out != repl
    requires Valid(b) && SameLayout(a, b)
    requires forall n, k :: n in a.nodes && 0 <= k < |a.nodes[n].inputs| ==>
               b.nodes[n].inputs[k] == Chain([out], [repl], a.nodes[n].inputs[k])
    ensures forall u :: u in a.values[out].uses ==> Refers(b, u, repl)
    ensures b.values[out].uses == {}
  {
    assert [out][..0] == [] && [repl][..0] == [];
    assert Chain([out], [repl], Some(out)) == Some(repl);
    forall u | u in a.values[out].uses
      ensures Refers(b, u, repl)
    {
      assert Refers(a, u, out);
    }
    forall u: Use | u.node in a.nodes && u.slot < |a.nodes[u.node].inputs|
      ensures !Refers(b, u, out)
    {
      ChainAvoids([out], [repl], 0, a.nodes[u.node].inputs[u.slot]);
    }
  }
}

=== FILE: splice.dfy ===
/** `replace_nodes_and_values`: the splice that swaps a set of nodes and
values of a graph or function for new ones.

The steps run in the order `replace_nodes_and_values` runs them: copy metadata onto the new values,
redirect the uses, patch the container outputs, insert the new nodes, remove
the old ones. A step that raises leaves the container as the completed steps
made it, so a failure is reported together with that partial state. */
module Splice {
  import opened Outcomes
  import opened Types
  import opened Storage
  import opened Containers
  import opened Rewire

  function Min(x: nat, y: nat): nat {
    if x <= y then x else y
  }

  /** The four fields the splice carries over: type, shape, constant, name. */
  datatype Metadata = Metadata(typ: Option<TypeDesc>, shape: Option<Shape>, constValue: Option<Tensor>, name: Option<string>)

  function MetadataOf(v: Value): Metadata {
    Metadata(v.typ, v.shape, v.constValue, v.name)
  }

  /** `target` with `source`'s metadata, one-directionally overwritten. */
  function Overwritten(target: Value, source: Value): (r: Value)
    ensures MetadataOf(r) == MetadataOf(source)
    ensures r.uses == target.uses && r.producer == target.producer
  {
    target.(typ := source.typ, shape := source.shape, constValue := source.constValue, name := source.name)
  }

  /** `b` differs from `a` only in the metadata of values. */
  ghost predicate MetadataOnly(a: Arena, b: Arena) {
    && b.nodes == a.nodes
    && b.values.Keys == a.values.Keys
    && forall v :: v in a.values ==> b.values[v].uses == a.values[v].uses && b.values[v].producer == a.values[v].producer
  }

  lemma MetadataOnlyKeepsValid(a: Arena, b: Arena)
    requires Valid(a) && MetadataOnly(a, b)
    ensures Valid(b)
  {
    assert forall v, u :: v in b.values && u in b.values[v].uses ==> u in a.values[v].uses;
  }

  ghost predicate AllIn(vs: seq<ValueId>, a: Arena) {
    forall i :: 0 <= i < |vs| ==> vs[i] in a.values
  }

  /** One pair: the metadata of `to` is overwritten with that of `from`. */
  function CopyOne(a: Arena, from: ValueId, to: ValueId): (b: Arena)
    requires from in a.values && to in a.values
    ensures b.nodes == a.nodes && b.values.Keys == a.values.Keys
  {
    a.(values := a.values[to := Overwritten(a.values[to], a.values[from])])
  }

  /** Step 1: for each pair `(olds[i], news[i])`, in order, the new value's
      metadata is overwritten with the old value's. The splice passes the
      pairs of the truncating zip, so the two sequences here are equally long. */
  function CopyMetadata(a: Arena, olds: seq<ValueId>, news: seq<ValueId>): (b: Arena)
    requires |olds| == |news| && AllIn(olds, a) && AllIn(news, a)
    ensures MetadataOnly(a, b)
    ensures forall v :: v in a.values && v !in news ==> b.values[v] == a.values[v]
    decreases |olds|
  {
    if |olds| == 0 then a
    else
      var a1 := CopyOne(a, olds[0], news[0]);
      CopyMetadata(a1, olds[1..], news[1..])
  }

  /** No new value is also an old value, and no new value is listed twice. */
  predicate Separate(olds: seq<ValueId>, news: seq<ValueId>) {
    && Distinct(news)
    && forall i, j :: 0 <= i < |olds| && 0 <= j < |news| ==> olds[i] != news[j]
  }

  /** With separate old and new values, each new value ends with its old
      value's metadata, whatever the order of the pairs. */
  lemma {:induction false} CopyMetadataPairs(a: Arena, olds: seq<ValueId>, news: seq<ValueId>)
    requires |olds| == |news| && AllIn(olds, a) && AllIn(news, a) && Separate(olds, news)
    ensures forall i :: 0 <= i < |news| ==>
              MetadataOf(CopyMetadata(a, olds, news).values[news[i]]) == MetadataOf(a.values[olds[i]])
    decreases |olds|
  {
    if |olds| > 0 {
      var a1 := CopyOne(a, olds[0], news[0]);
      CopyMetadataPairs(a1, olds[1..], news[1..]);
      assert news[0] !in news[1..];
      forall i | 1 <= i < |news|
        ensures a1.values[olds[i]] == a.values[olds[i]]
      {
        assert olds[i] != news[0];
      }
    }
  }

  /** Copying the metadata a second time changes nothing. */
  lemma CopyMetadataIdempotent(a: Arena, olds: seq<ValueId>, news: seq<ValueId>)
    requires |olds| == |news| && AllIn(olds, a) && AllIn(news, a) && Separate(olds, news)
    ensures var b := CopyMetadata(a, olds, news);
            forall v :: v in a.values ==> CopyMetadata(b, olds, news).values[v] == b.values[v]
  {
    var b := CopyMetadata(a, olds, news);
    var c := CopyMetadata(b, olds, news);
    CopyMetadataPairs(a, olds, news);
    CopyMetadataPairs(b, olds, news);
    forall v | v in a.values
      ensures c.values[v] == b.values[v]
    {
      if v in news {
        var i :| 0 <= i < |news| && news[i] == v;
        assert olds[i] !in news;
        assert MetadataOf(c.values[v]) == MetadataOf(b.values[v]);
      }
    }
  }

  /** The position of the last occurrence of `x` in `s`. */
  function LastIndexOf(s: seq<ValueId>, x: ValueId): (p: nat)
    requires x in s
    ensures p < |s| && s[p] == x
    ensures forall j :: p < j < |s| ==> s[j] != x
  {
    if s[|s| - 1] == x then |s| - 1
    else
      assert x in s[..|s| - 1] by {
        var i :| 0 <= i < |s| && s[i] == x;
        assert s[..|s| - 1][i] == x;
      }
      LastIndexOf(s[..|s| - 1], x)
  }

  /** No later element of `s` equals `s[i]`. */
  predicate LastOf(s: seq<ValueId>, i: nat)
    requires i < |s|
  {
    forall j :: i < j < |s| ==> s[j] != s[i]
  }

  /** `dict(zip(olds, news))`: a key listed more than once takes the new value
      of its last pair. */
  function ZipMap(olds: seq<ValueId>, news: seq<ValueId>): (r: map<ValueId, ValueId>)
    requires |olds| == |news|
    ensures forall v :: v in r <==> v in olds
    ensures forall i :: 0 <= i < |olds| && LastOf(olds, i) ==> olds[i] in r && r[olds[i]] == news[i]
    ensures forall v :: v in r ==> r[v] in news
  {
    map v | v in olds :: news[LastIndexOf(olds, v)]
  }

  /** Step 3: every container output that is an old value becomes its paired new value. */
  function PatchOutputs(outputs: seq<ValueId>, mapping: map<ValueId, ValueId>): (r: seq<ValueId>)
    ensures |r| == |outputs|
    ensures forall i :: 0 <= i < |r| && outputs[i] in mapping ==> r[i] == mapping[outputs[i]]
    ensures forall i :: 0 <= i < |r| && outputs[i] !in mapping ==> r[i] == outputs[i]
  {
    seq(|outputs|, i requires 0 <= i < |outputs| => if outputs[i] in mapping then mapping[outputs[i]] else outputs[i])
  }

  /** The splice's result: the finished container, or the exception and the
      container as the steps before it left it. */
  datatype SpliceOutcome = Spliced(container: Container) | Raised(error: Error, partial: Container)

  /** Step 1 on a container: the metadata copy keeps it well formed. */
  function CopyStep(c: Container, olds: seq<ValueId>, news: seq<ValueId>): (r: Container)
    requires WellFormed(c) && |olds| == |news| && AllIn(olds, c.arena) && AllIn(news, c.arena)
    ensures WellFormed(r) && r == c.(arena := r.arena) && MetadataOnly(c.arena, r.arena)
  {
    var copied := CopyMetadata(c.arena, olds, news);
    MetadataOnlyKeepsValid(c.arena, copied);
    c.(arena := copied)
  }

  /** Step 3 on a container: outputs that are old values become new values. */
  function PatchStep(c: Container, olds: seq<ValueId>, news: seq<ValueId>): (r: Container)
    requires WellFormed(c) && |olds| == |news| && AllIn(news, c.arena)
    ensures WellFormed(r) && r == c.(outputs := r.outputs) && |r.outputs| == |c.outputs|
    ensures r.outputs == PatchOutputs(c.outputs, ZipMap(olds, news))
    ensures forall i :: 0 <= i < |c.outputs| && c.outputs[i] !in olds ==> r.outputs[i] == c.outputs[i]
    ensures forall i, j :: 0 <= i < |c.outputs| && 0 <= j < |olds| && c.outputs[i] == olds[j] && LastOf(olds, j) ==>
              r.outputs[i] == news[j]
  {
    var mapping := ZipMap(olds, news);
    var r := c.(outputs := PatchOutputs(c.outputs, mapping));
    assert forall i :: 0 <= i < |r.outputs| ==> r.outputs[i] in c.arena.values;
    r
  }

  /** Steps 1 to 3: copy metadata over the truncating zip, redirect every
      use of an old value to its new value, and patch the container outputs.
      Unequal value counts raise in step 2, after the copy. */
  method SpliceValues(c: Container, olds: seq<ValueId>, news: seq<ValueId>) returns (r: SpliceOutcome)
    requires WellFormed(c) && AllIn(olds, c.arena) && AllIn(news, c.arena)
    // Unequal counts raise, after the metadata copy over the truncated zip.
    ensures var m := Min(|olds|, |news|);
            && (r.Raised? <==> |olds| != |news|)
            && (r.Raised? ==> r == Raised(ValueError, c.(arena := CopyMetadata(c.arena, olds[..m], news[..m]))))
    // The arena: metadata copied, then only slots and use sets changed, every
    // slot rewired along the pairs.
    ensures r.Spliced? ==>
              && |olds| == |news|
              && WellFormed(r.container)
              && r.container == c.(arena := r.container.arena, outputs := r.container.outputs)
              && r.container.arena.values.Keys == c.arena.values.Keys
              && r.container.arena.nodes.Keys == c.arena.nodes.Keys
              && SameLayout(CopyMetadata(c.arena, olds, news), r.container.arena)
              && forall n, k :: n in c.arena.nodes && 0 <= k < |c.arena.nodes[n].inputs| ==>
                   SlotIs(r.container.arena, n, k, Chain(olds, news, c.arena.nodes[n].inputs[k]))
    // The outputs: patched through the mapping of the pairs, so an old value
    // becomes the new value of its last pair and every other output stays.
    ensures r.Spliced? ==>
              && |olds| == |news|
              && r.container.outputs == PatchOutputs(c.outputs, ZipMap(olds, news))
              && |r.container.outputs| == |c.outputs|
              && (forall i, j :: 0 <= i < |c.outputs| && 0 <= j < |olds| && c.outputs[i] == olds[j] && LastOf(olds, j) ==>
                    r.container.outputs[i] == news[j])
              && forall i :: 0 <= i < |c.outputs| && c.outputs[i] !in olds ==> r.container.outputs[i] == c.outputs[i]
    // Separate values: the metadata is carried over and no slot reads an old value.
    ensures r.Spliced? && Separate(olds, news) ==>
              && (forall i :: 0 <= i < |news| ==> MetadataOf(r.container.arena.values[news[i]]) == MetadataOf(c.arena.values[olds[i]]))
              && forall n, k, i :: n in r.container.arena.nodes && 0 <= k < |r.container.arena.nodes[n].inputs| && 0 <= i < |olds| ==>
                   r.container.arena.nodes[n].inputs[k] != Some(olds[i])
  {
    var m := Min(|olds|, |news|);
    var c1 := CopyStep(c, olds[..m], news[..m]);
    var rewired := ReplaceAllUsesWith(c1.arena, Many(olds), Many(news));
    if rewired.Err? {
      return Raised(rewired.error, c1);
    }
    assert olds[..m] == olds && news[..m] == news;
    RewiredWellFormed(c1, rewired.value);
    var c3 := PatchStep(c1.(arena := rewired.value), olds, news);
    if Separate(olds, news) {
      CopyMetadataPairs(c.arena, olds, news);
      NoOldReads(rewired.value, olds, news);
    }
    r := Spliced(c3);
  }

  /** Under separate old and new values, once every old value has no uses no
      slot reads one. */
  lemma NoOldReads(b: Arena, olds: seq<ValueId>, news: seq<ValueId>)
    requires Valid(b) && |olds| == |news| && Separate(olds, news) && AllIn(olds, b)
    requires forall i :: 0 <= i < |olds| && olds[i] !in news[i..] ==> b.values[olds[i]].uses == {}
    ensures forall n, k, i :: n in b.nodes && 0 <= k < |b.nodes[n].inputs| && 0 <= i < |olds| ==>
              b.nodes[n].inputs[k] != Some(olds[i])
  {
    forall n, k, i | n in b.nodes && 0 <= k < |b.nodes[n].inputs| && 0 <= i < |olds|
      ensures b.nodes[n].inputs[k] != Some(olds[i])
    {
      assert olds[i] !in news[i..];
      assert Use(n, k) !in b.values[olds[i]].uses;
    }
  }

  /** The anchor sits in the order with the given nodes right after it. */
  predicate RunAfter(order: seq<NodeId>, anchor: NodeId, run: seq<NodeId>) {
    exists q :: 0 <= q && q + |run| < |order| && order[q] == anchor && order[q + 1..q + 1 + |run|] == run
  }

  /** When `insert_after` or `remove` rejects the node lists, judged on the
      node order: the anchor is missing, a new node is listed twice or is
      already in the order, or an old node is in neither the order nor the
      new nodes. */
  predicate OrderStepsFail(order: seq<NodeId>, anchor: NodeId, olds: seq<NodeId>, news: seq<NodeId>) {
    || anchor !in order
    || !Distinct(news)
    || (exists i :: 0 <= i < |news| && news[i] in order)
    || (exists i :: 0 <= i < |olds| && olds[i] !in order && olds[i] !in news)
  }

  /** When step 4 or 5 raises: the node lists are rejected, or an old node
      cannot be removed safely. */
  predicate NodeStepsFail(c: Container, anchor: NodeId, olds: seq<NodeId>, news: seq<NodeId>) {
    OrderStepsFail(c.order, anchor, olds, news) || !SafeToRemove(c, set n | n in olds)
  }

  /** Steps 4 and 5: insert the new nodes after the anchor, then remove the
      old nodes. */
  function SpliceNodes(c: Container, anchor: NodeId, olds: seq<NodeId>, news: seq<NodeId>): (r: SpliceOutcome)
    requires WellFormed(c)
    requires forall i :: 0 <= i < |news| ==> news[i] in c.arena.nodes
    ensures r.Raised? ==> r.error == ValueError
    ensures r.Spliced? ==> && WellFormed(r.container)
                           && r.container == c.(arena := r.container.arena, order := r.container.order)
                           && SameLayout(c.arena, r.container.arena)
    // A rejected insertion leaves the container as it was; a rejected removal
    // leaves it with the new nodes inserted.
    ensures r.Raised? && InsertRejected(c.order, anchor, news) ==> r.partial == c
    ensures r.Raised? && !InsertRejected(c.order, anchor, news) ==>
              r.partial == c.(order := InsertedAt(c.order, anchor, news))
    // The order: the new nodes go right after the anchor, then the old nodes
    // leave; every other node keeps its place relative to the rest.
    ensures r.Spliced? ==> anchor in c.order && r.container.order == Without(InsertedAt(c.order, anchor, news), set n | n in olds)
    ensures r.Spliced? ==> forall n :: n in r.container.order <==> (n in c.order || n in news) && n !in olds
    ensures r.Spliced? && anchor !in olds && (forall i :: 0 <= i < |news| ==> news[i] !in olds) ==>
              RunAfter(r.container.order, anchor, news)
    ensures r.Spliced? ==> forall n, k :: n in olds && n in r.container.arena.nodes && 0 <= k < |r.container.arena.nodes[n].inputs| ==>
              r.container.arena.nodes[n].inputs[k].None?
    ensures r.Spliced? ==> forall n, k :: n in c.arena.nodes && n !in olds && 0 <= k < |c.arena.nodes[n].inputs| ==>
              SameSlot(c.arena, r.container.arena, n, k)
  {
    InsertAfterExact(c, anchor, news);
    match InsertAfter(c, anchor, news)
    case Err(e) => Raised(e, c)
    case Ok(inserted) =>
      match Remove(inserted, olds)
      case Err(e) => Raised(e, inserted)
      case Ok(removed) =>
        SplicedOrder(c, inserted, removed, anchor, olds, news);
        Spliced(removed)
  }

  /** The node steps raise exactly when `insert_after` rejects the node
      lists or `remove` rejects the old nodes; otherwise the splice goes through. */
  lemma SpliceNodesRaisesExactly(c: Container, anchor: NodeId, olds: seq<NodeId>, news: seq<NodeId>)
    requires WellFormed(c)
    requires forall i :: 0 <= i < |news| ==> news[i] in c.arena.nodes
    ensures SpliceNodes(c, anchor, olds, news).Raised? <==> NodeStepsFail(c, anchor, olds, news)
  {
    var inserted := InsertAfter(c, anchor, news);
    if inserted.Ok? {
      RemovalJudgedBefore(c, inserted.value, olds, news);
    }
  }

  /** Whether `remove` raises after `insert_after` can be read off the
      container before the insertion. */
  lemma RemovalJudgedBefore(c: Container, inserted: Container, olds: seq<NodeId>, news: seq<NodeId>)
    requires inserted == c.(order := inserted.order)
    requires forall n :: n in inserted.order <==> n in c.order || n in news
    ensures (exists i :: 0 <= i < |olds| && olds[i] !in inserted.order) <==>
            (exists i :: 0 <= i < |olds| && olds[i] !in c.order && olds[i] !in news)
    ensures SafeToRemove(inserted, set n | n in olds) <==> SafeToRemove(c, set n | n in olds)
  {
  }

  /** After the value steps, output `w` of an old node is no container
      output and is read only by old nodes, judged on the container before
      those steps. */
  predicate ReleasedAfterValues(c: Container, oldNodes: seq<NodeId>, olds: seq<ValueId>, news: seq<ValueId>, w: ValueId)
    requires |olds| == |news|
  {
    && w !in PatchOutputs(c.outputs, ZipMap(olds, news))
    && forall m, k ::
         m in c.arena.nodes && 0 <= k < |c.arena.nodes[m].inputs| && Chain(olds, news, c.arena.nodes[m].inputs[k]) == Some(w) ==>
           m in oldNodes
  }

  /** `SafeToRemove` of the old nodes once the value steps have run, judged on
      the container before them. */
  predicate SafeAfterValues(c: Container, oldNodes: seq<NodeId>, olds: seq<ValueId>, news: seq<ValueId>)
    requires |olds| == |news|
  {
    forall n, j :: n in oldNodes && n in c.arena.nodes && 0 <= j < |c.arena.nodes[n].outputs| ==>
      ReleasedAfterValues(c, oldNodes, olds, news, c.arena.nodes[n].outputs[j])
  }

  /** What the value steps leave of the arena: only the metadata of new
      values, input slots and use sets differ, and each slot is rewired
      along the pairs. */
  ghost predicate ValueStepsDid(c: Container, valued: Container, olds: seq<ValueId>, news: seq<ValueId>)
    requires |olds| == |news|
  {
    && Valid(valued.arena)
    && valued.order == c.order
    && valued.outputs == PatchOutputs(c.outputs, ZipMap(olds, news))
    && valued.arena.nodes.Keys == c.arena.nodes.Keys
    && valued.arena.values.Keys == c.arena.values.Keys
    && (forall n :: n in c.arena.nodes ==>
          |valued.arena.nodes[n].inputs| == |c.arena.nodes[n].inputs| &&
          valued.arena.nodes[n] == c.arena.nodes[n].(inputs := valued.arena.nodes[n].inputs))
    && (forall n, k :: n in c.arena.nodes && 0 <= k < |c.arena.nodes[n].inputs| ==>
          SlotIs(valued.arena, n, k, Chain(olds, news, c.arena.nodes[n].inputs[k])))
  }

  /** The value steps, as `SpliceValues` states them, do what `ValueStepsDid` says. */
  lemma ValueStepsFrame(c: Container, valued: Container, olds: seq<ValueId>, news: seq<ValueId>)
    requires WellFormed(c) && |olds| == |news| && AllIn(olds, c.arena) && AllIn(news, c.arena)
    requires WellFormed(valued) && valued == c.(arena := valued.arena, outputs := valued.outputs)
    requires SameLayout(CopyMetadata(c.arena, olds, news), valued.arena)
    requires valued.outputs == PatchOutputs(c.outputs, ZipMap(olds, news))
    requires forall n, k :: n in c.arena.nodes && 0 <= k < |c.arena.nodes[n].inputs| ==>
               SlotIs(valued.arena, n, k, Chain(olds, news, c.arena.nodes[n].inputs[k]))
    ensures ValueStepsDid(c, valued, olds, news)
    ensures forall x :: x in c.arena.values && x !in news ==>
              valued.arena.values[x] == c.arena.values[x].(uses := valued.arena.values[x].uses)
  {
  }

  /** Whether an old node's output is released after the value steps can be
      read off the container before them. */
  lemma ReleasedExact(c: Container, valued: Container, oldNodes: seq<NodeId>, olds: seq<ValueId>, news: seq<ValueId>, w: ValueId)
    requires |olds| == |news| && ValueStepsDid(c, valued, olds, news) && w in valued.arena.values
    ensures OutputReleased(valued, w, set n | n in oldNodes) <==> ReleasedAfterValues(c, oldNodes, olds, news, w)
  {
    var gone := set n | n in oldNodes;
    if OutputReleased(valued, w, gone) {
      forall m, k | m in c.arena.nodes && 0 <= k < |c.arena.nodes[m].inputs| &&
                    Chain(olds, news, c.arena.nodes[m].inputs[k]) == Some(w)
        ensures m in oldNodes
      {
        assert SlotIs(valued.arena, m, k, Some(w));
        UsesExact(valued.arena, w, Use(m, k));
      }
    }
    if ReleasedAfterValues(c, oldNodes, olds, news, w) {
      forall u | u in valued.arena.values[w].uses
        ensures u.node in gone
      {
        UsesExact(valued.arena, w, u);
        assert SlotIs(valued.arena, u.node, u.slot, Chain(olds, news, c.arena.nodes[u.node].inputs[u.slot]));
      }
    }
  }

  /** The removal verdict after the value steps, read off the container before them. */
  lemma SafeAfterValuesExact(c: Container, valued: Container, oldNodes: seq<NodeId>, olds: seq<ValueId>, news: seq<ValueId>)
    requires |olds| == |news| && ValueStepsDid(c, valued, olds, news)
    requires LinksLive(valued.arena)
    ensures SafeToRemove(valued, set n | n in oldNodes) <==> SafeAfterValues(c, oldNodes, olds, news)
  {
    var gone := set n | n in oldNodes;
    forall n, j | n in oldNodes && n in c.arena.nodes && 0 <= j < |c.arena.nodes[n].outputs|
      ensures OutputReleased(valued, valued.arena.nodes[n].outputs[j], gone) <==>
              ReleasedAfterValues(c, oldNodes, olds, news, c.arena.nodes[n].outputs[j])
    {
      ReleasedExact(c, valued, oldNodes, olds, news, c.arena.nodes[n].outputs[j]);
    }
  }

  /** The node steps keep every slot of a node that stays, so those slots
      still hold what the value steps rewired them to; with separate values
      a slot that held an old value holds the new value of its first pair. */
  lemma SurvivingSlots(c: Container, valued: Container, final: Arena, oldNodes: seq<NodeId>, olds: seq<ValueId>, news: seq<ValueId>)
    requires |olds| == |news| && ValueStepsDid(c, valued, olds, news)
    requires SameLayout(valued.arena, final)
    requires forall n, k :: n in valued.arena.nodes && n !in oldNodes && 0 <= k < |valued.arena.nodes[n].inputs| ==>
               SameSlot(valued.arena, final, n, k)
    ensures forall n, k :: n in c.arena.nodes && n !in oldNodes && 0 <= k < |c.arena.nodes[n].inputs| ==>
              SlotIs(final, n, k, Chain(olds, news, c.arena.nodes[n].inputs[k]))
    ensures Separate(olds, news) ==>
              forall n, k, i ::
                n in c.arena.nodes && n !in oldNodes && 0 <= i < |olds| && FirstOf(olds, i) && SlotIs(c.arena, n, k, Some(olds[i])) ==>
                  SlotIs(final, n, k, Some(news[i]))
  {
    forall n, k | n in c.arena.nodes && n !in oldNodes && 0 <= k < |c.arena.nodes[n].inputs|
      ensures SlotIs(final, n, k, Chain(olds, news, c.arena.nodes[n].inputs[k]))
    {
      assert SameSlot(valued.arena, final, n, k);
    }
    if Separate(olds, news) {
      forall n, k, i | n in c.arena.nodes && n !in oldNodes && 0 <= i < |olds| && FirstOf(olds, i) &&
                       SlotIs(c.arena, n, k, Some(olds[i]))
        ensures SlotIs(final, n, k, Some(news[i]))
      {
        ChainFirstWins(olds, news, i);
      }
    }
  }

  /** The node steps change only input slots, use sets and the order, so what
      the value steps did to the arena and the outputs carries over. */
  lemma SplicedArena(c: Container, valued: Container, final: Container, olds: seq<ValueId>, news: seq<ValueId>)
    requires WellFormed(c) && |olds| == |news| && AllIn(olds, c.arena) && AllIn(news, c.arena)
    requires valued == c.(arena := valued.arena, outputs := valued.outputs)
    requires SameLayout(CopyMetadata(c.arena, olds, news), valued.arena)
    requires final == valued.(arena := final.arena, order := final.order)
    requires SameLayout(valued.arena, final.arena)
    ensures final.inputs == c.inputs && final.initializers == c.initializers && final.outputs == valued.outputs
    ensures final.arena.values.Keys == c.arena.values.Keys && final.arena.nodes.Keys == c.arena.nodes.Keys
    ensures SameLayout(CopyMetadata(c.arena, olds, news), final.arena)
    ensures forall n :: n in c.arena.nodes ==>
              final.arena.nodes[n] == c.arena.nodes[n].(inputs := final.arena.nodes[n].inputs)
    ensures forall x :: x in c.arena.values && x !in news ==>
              final.arena.values[x] == c.arena.values[x].(uses := final.arena.values[x].uses)
    ensures forall i :: 0 <= i < |news| ==> MetadataOf(final.arena.values[news[i]]) == MetadataOf(valued.arena.values[news[i]])
  {
    SameLayoutTransitive(CopyMetadata(c.arena, olds, news), valued.arena, final.arena);
  }

  /** What a raising node step leaves: the value steps' arena (metadata
      copied, every slot rewired along the pairs) and patched outputs, with
      the order as `insert_after` left it. */
  ghost predicate NodeStepsPartial(c: Container, partial: Container, anchor: NodeId, newNodes: seq<NodeId>, olds: seq<ValueId>, news: seq<ValueId>)
    requires |olds| == |news| && AllIn(olds, c.arena) && AllIn(news, c.arena)
  {
    && partial == c.(arena := partial.arena, outputs := partial.outputs, order := partial.order)
    && SameLayout(CopyMetadata(c.arena, olds, news), partial.arena)
    && (forall n, k :: n in c.arena.nodes && 0 <= k < |c.arena.nodes[n].inputs| ==>
          SlotIs(partial.arena, n, k, Chain(olds, news, c.arena.nodes[n].inputs[k])))
    && partial.outputs == PatchOutputs(c.outputs, ZipMap(olds, news))
    && (InsertRejected(c.order, anchor, newNodes) ==> partial.order == c.order)
    && (!InsertRejected(c.order, anchor, newNodes) ==> partial.order == InsertedAt(c.order, anchor, newNodes))
  }

  /** A node step that raises after the value steps leaves `NodeStepsPartial`. */
  lemma RaisedAfterValues(c: Container, valued: Container, partial: Container, anchor: NodeId, newNodes: seq<NodeId>, olds: seq<ValueId>, news: seq<ValueId>)
    requires |olds| == |news| && AllIn(olds, c.arena) && AllIn(news, c.arena)
    requires valued == c.(arena := valued.arena, outputs := valued.outputs)
    requires SameLayout(CopyMetadata(c.arena, olds, news), valued.arena)
    requires forall n, k :: n in c.arena.nodes && 0 <= k < |c.arena.nodes[n].inputs| ==>
               SlotIs(valued.arena, n, k, Chain(olds, news, c.arena.nodes[n].inputs[k]))
    requires valued.outputs == PatchOutputs(c.outputs, ZipMap(olds, news))
    requires InsertRejected(valued.order, anchor, newNodes) ==> partial == valued
    requires !InsertRejected(valued.order, anchor, newNodes) ==> partial == valued.(order := InsertedAt(valued.order, anchor, newNodes))
    ensures NodeStepsPartial(c, partial, anchor, newNodes, olds, news)
  {
  }

  /** `replace_nodes_and_values`: the value steps, then the node steps. */
  method ReplaceNodesAndValues(
    c: Container, anchor: NodeId,
    oldNodes: seq<NodeId>, newNodes: seq<NodeId>,
    oldValues: seq<ValueId>, newValues: seq<ValueId>) returns (r: SpliceOutcome)
    requires WellFormed(c)
    requires AllIn(oldValues, c.arena) && AllIn(newValues, c.arena)
    requires forall i :: 0 <= i < |newNodes| ==> newNodes[i] in c.arena.nodes
    // Unequal value counts raise only after the metadata copy over the truncated zip.
    ensures var m := Min(|oldValues|, |newValues|);
            |oldValues| != |newValues| ==>
              r == Raised(ValueError, c.(arena := CopyMetadata(c.arena, oldValues[..m], newValues[..m])))
    ensures r.Raised? ==> r.error == ValueError
    // With equal value counts, the node steps raise exactly when `insert_after`
    // or `remove` rejects the nodes, judged on the container before the splice.
    ensures |oldValues| == |newValues| ==>
              (r.Raised? <==> OrderStepsFail(c.order, anchor, oldNodes, newNodes) || !SafeAfterValues(c, oldNodes, oldValues, newValues))
    ensures r.Spliced? ==> |oldValues| == |newValues| && WellFormed(r.container)
    // A node step that raises leaves the container as the value steps made it,
    // with the new nodes inserted when only the removal was rejected.
    ensures |oldValues| == |newValues| && r.Raised? ==>
              NodeStepsPartial(c, r.partial, anchor, newNodes, oldValues, newValues)
    // The arena: metadata copied onto the new values; otherwise only input
    // slots and use sets change.
    ensures r.Spliced? ==> SameLayout(CopyMetadata(c.arena, oldValues, newValues), r.container.arena)
    ensures r.Spliced? ==> forall n :: n in c.arena.nodes ==>
              r.container.arena.nodes[n] == c.arena.nodes[n].(inputs := r.container.arena.nodes[n].inputs)
    ensures r.Spliced? ==> forall x :: x in c.arena.values && x !in newValues ==>
              r.container.arena.values[x] == c.arena.values[x].(uses := r.container.arena.values[x].uses)
    // The slots of nodes that stay are rewired along the pairs; with separate
    // values a slot holding an old value takes the new value of its first pair.
    ensures r.Spliced? ==> forall n, k :: n in c.arena.nodes && n !in oldNodes && 0 <= k < |c.arena.nodes[n].inputs| ==>
              SlotIs(r.container.arena, n, k, Chain(oldValues, newValues, c.arena.nodes[n].inputs[k]))
    ensures r.Spliced? && Separate(oldValues, newValues) ==>
              forall n, k, i ::
                n in c.arena.nodes && n !in oldNodes && 0 <= i < |oldValues| && FirstOf(oldValues, i) &&
                SlotIs(c.arena, n, k, Some(oldValues[i])) ==>
                  SlotIs(r.container.arena, n, k, Some(newValues[i]))
    ensures r.Spliced? ==> r.container.inputs == c.inputs && r.container.initializers == c.initializers
    ensures r.Spliced? ==> r.container.arena.values.Keys == c.arena.values.Keys && r.container.arena.nodes.Keys == c.arena.nodes.Keys
    // Outputs: an old value becomes the new value of its last pair; others stay.
    ensures r.Spliced? ==> |r.container.outputs| == |c.outputs|
    ensures r.Spliced? ==> forall i, j :: 0 <= i < |c.outputs| && 0 <= j < |oldValues| && c.outputs[i] == oldValues[j] && LastOf(oldValues, j) ==>
              r.container.outputs[i] == newValues[j]
    ensures r.Spliced? ==> forall i :: 0 <= i < |c.outputs| && c.outputs[i] !in oldValues ==>
              r.container.outputs[i] == c.outputs[i]
    // Node order: the new nodes are in, the old ones out, and the new ones
    // follow the anchor when neither it nor they are removed.
    ensures r.Spliced? ==>
              anchor in c.order && r.container.order == Without(InsertedAt(c.order, anchor, newNodes), set n | n in oldNodes)
    ensures r.Spliced? ==> forall n :: n in r.container.order <==> (n in c.order || n in newNodes) && n !in oldNodes
    ensures r.Spliced? && anchor !in oldNodes && (forall i :: 0 <= i < |newNodes| ==> newNodes[i] !in oldNodes) ==>
              RunAfter(r.container.order, anchor, newNodes)
    // The removed nodes consume nothing.
    ensures r.Spliced? ==> forall n, k :: n in oldNodes && n in r.container.arena.nodes && 0 <= k < |r.container.arena.nodes[n].inputs| ==>
              r.container.arena.nodes[n].inputs[k].None?
    // Values: metadata carried over, and no slot of any node reads an old value.
    ensures r.Spliced? && Separate(oldValues, newValues) ==>
              forall i :: 0 <= i < |newValues| ==>
                MetadataOf(r.container.arena.values[newValues[i]]) == MetadataOf(c.arena.values[oldValues[i]])
    ensures r.Spliced? && Separate(oldValues, newValues) ==>
              forall n, k, i :: n in r.container.arena.nodes && 0 <= k < |r.container.arena.nodes[n].inputs| && 0 <= i < |oldValues| ==>
                r.container.arena.nodes[n].inputs[k] != Some(oldValues[i])
  {
    r := SpliceValues(c, oldValues, newValues);
    if r.Raised? {
      return;
    }
    var valued := r.container;
    ValueStepsFrame(c, valued, oldValues, newValues);
    SafeAfterValuesExact(c, valued, oldNodes, oldValues, newValues);
    SpliceNodesRaisesExactly(valued, anchor, oldNodes, newNodes);
    r := SpliceNodes(valued, anchor, oldNodes, newNodes);
    if r.Raised? {
      RaisedAfterValues(c, valued, r.partial, anchor, newNodes, oldValues, newValues);
    }
    if r.Spliced? {
      SplicedArena(c, valued, r.container, oldValues, newValues);
      SurvivingSlots(c, valued, r.container.arena, oldNodes, oldValues, newValues);
      if Separate(oldValues, newValues) {
        StillNoOldReads(valued.arena, r.container.arena, oldValues, oldNodes);
      }
    }
  }

  /** The node steps only empty slots of removed nodes, so a value no slot
      read before is read by none after. */
  lemma StillNoOldReads(b: Arena, final: Arena, olds: seq<ValueId>, oldNodes: seq<NodeId>)
    requires SameLayout(b, final)
    requires forall n, k, i :: n in b.nodes && 0 <= k < |b.nodes[n].inputs| && 0 <= i < |olds| ==> b.nodes[n].inputs[k] != Some(olds[i])
    requires forall n, k :: n in oldNodes && n in final.nodes && 0 <= k < |final.nodes[n].inputs| ==> final.nodes[n].inputs[k].None?
    requires forall n, k :: n in b.nodes && n !in oldNodes && 0 <= k < |b.nodes[n].inputs| ==> SameSlot(b, final, n, k)
    ensures forall n, k, i :: n in final.nodes && 0 <= k < |final.nodes[n].inputs| && 0 <= i < |olds| ==>
              final.nodes[n].inputs[k] != Some(olds[i])
  {
    forall n, k, i | n in final.nodes && 0 <= k < |final.nodes[n].inputs| && 0 <= i < |olds|
      ensures final.nodes[n].inputs[k] != Some(olds[i])
    {
      if n !in oldNodes {
        assert SameSlot(b, final, n, k);
      }
    }
  }

  lemma SplicedOrder(c3: Container, c4: Container, c5: Container, anchor: NodeId, oldNodes: seq<NodeId>, newNodes: seq<NodeId>)
    requires exists p :: 0 <= p < |c3.order| && c3.order[p] == anchor && c4.order == c3.order[..p + 1] + newNodes + c3.order[p + 1..]
    requires forall n :: n in c4.order <==> n in c3.order || n in newNodes
    requires c5.order == Without(c4.order, set n | n in oldNodes)
    ensures forall n :: n in c5.order <==> (n in c3.order || n in newNodes) && n !in oldNodes
    ensures anchor !in oldNodes && (forall i :: 0 <= i < |newNodes| ==> newNodes[i] !in oldNodes) ==>
              RunAfter(c5.order, anchor, newNodes)
  {
    var gone := set n | n in oldNodes;
    WithoutMembers(c4.order, gone);
    var p :| 0 <= p < |c3.order| && c3.order[p] == anchor && c4.order == c3.order[..p + 1] + newNodes + c3.order[p + 1..];
    if anchor !in oldNodes && (forall i :: 0 <= i < |newNodes| ==> newNodes[i] !in oldNodes) {
      InsertedSurviveRemoval(c3.order, p, newNodes, gone);
    }
  }
}

=== FILE: storage.dfy ===
/** The value/node storage the convenience layer mutates, as an arena.

Values and nodes are records keyed by stable ids. A node's inputs reference
values by id (a slot may be empty); a value records its producer and the set
of `(node, slot)` pairs that consume it. The use sets are kept exactly in step
with the input slots: `Valid` states that invariant, and `ReplaceInputWith`
is the one storage primitive that changes an input slot, updating both sides
at once. */
module Storage {
  import opened Outcomes
  import opened Types

  type ValueId = nat
  type NodeId = nat

  /** A consumer of a value: input slot `slot` of node `node`. */
  datatype Use = Use(node: NodeId, slot: nat)

  datatype Value = Value(
    name: Option<string>,
    typ: Option<TypeDesc>,
    shape: Option<Shape>,
    constValue: Option<Tensor>,
    producer: Option<NodeId>,
    uses: set<Use>)

  /** A node; `attributes` is the node's attribute dictionary in insertion order. */
  datatype Node = Node(
    domain: string,
    opType: string,
    name: Option<string>,
    inputs: seq<Option<ValueId>>,
    outputs: seq<ValueId>,
    attributes: seq<(string, Attr)>)

  datatype Arena = Arena(values: map<ValueId, Value>, nodes: map<NodeId, Node>)

  /** Input slot `u.slot` of node `u.node` holds `v`. */
  predicate Refers(a: Arena, u: Use, v: ValueId) {
    u.node in a.nodes && u.slot < |a.nodes[u.node].inputs| && a.nodes[u.node].inputs[u.slot] == Some(v)
  }

  /** Every recorded use is backed by an input slot. */
  ghost predicate UsesSound(a: Arena) {
    forall v, u :: v in a.values && u in a.values[v].uses ==> Refers(a, u, v)
  }

  /** Every occupied input slot references a live value that records the use. */
  ghost predicate UsesComplete(a: Arena) {
    forall n, k ::
      n in a.nodes && 0 <= k < |a.nodes[n].inputs| && a.nodes[n].inputs[k].Some? ==>
        a.nodes[n].inputs[k].value in a.values && Use(n, k) in a.values[a.nodes[n].inputs[k].value].uses
  }

  /** Producers and outputs refer to live records. */
  ghost predicate LinksLive(a: Arena) {
    && (forall v :: v in a.values && a.values[v].producer.Some? ==> a.values[v].producer.value in a.nodes)
    && (forall n, j :: n in a.nodes && 0 <= j < |a.nodes[n].outputs| ==> a.nodes[n].outputs[j] in a.values)
  }

  /** The arena invariant: use sets are exactly the referencing input slots. */
  ghost predicate Valid(a: Arena) {
    UsesSound(a) && UsesComplete(a) && LinksLive(a)
  }

  /** Under the invariant, `uses(v)` is exactly the set of slots holding `v`. */
  lemma UsesExact(a: Arena, v: ValueId, u: Use)
    requires Valid(a) && v in a.values
    ensures u in a.values[v].uses <==> Refers(a, u, v)
  {
  }

  /** `b` differs from `a` at most in input slots and use sets. */
  ghost predicate SameLayout(a: Arena, b: Arena) {
    && a.values.Keys == b.values.Keys
    && a.nodes.Keys == b.nodes.Keys
    && (forall v :: v in a.values ==> b.values[v] == a.values[v].(uses := b.values[v].uses))
    && (forall n :: n in a.nodes ==>
          |b.nodes[n].inputs| == |a.nodes[n].inputs| && b.nodes[n] == a.nodes[n].(inputs := b.nodes[n].inputs))
  }

  lemma SameLayoutTransitive(a: Arena, b: Arena, c: Arena)
    requires SameLayout(a, b) && SameLayout(b, c)
    ensures SameLayout(a, c)
  {
  }

  /** Node `n` is live and its input slot `k` holds `x`. */
  predicate SlotIs(a: Arena, n: NodeId, k: int, x: Option<ValueId>) {
    n in a.nodes && 0 <= k < |a.nodes[n].inputs| && a.nodes[n].inputs[k] == x
  }

  /** Input slot `(m, j)` holds the same reference in `a` and `b`. */
  predicate SameSlot(a: Arena, b: Arena, m: NodeId, j: int)
    requires m in a.nodes && m in b.nodes
    requires 0 <= j < |a.nodes[m].inputs| && |a.nodes[m].inputs| == |b.nodes[m].inputs|
  {
    b.nodes[m].inputs[j] == a.nodes[m].inputs[j]
  }

  /** `Node.replace_input_with`: points input slot `k` of node `n` at `r`
      (or empties it), removing the use from the previous value's use set and
      adding it to `r`'s, in one step. */
  function ReplaceInputWith(a: Arena, n: NodeId, k: nat, r: Option<ValueId>): (b: Arena)
    requires Valid(a) && n in a.nodes && k < |a.nodes[n].inputs|
    requires r.Some? ==> r.value in a.values
    ensures Valid(b) && SameLayout(a, b)
    ensures b.nodes[n].inputs[k] == r
    ensures forall m, j :: m in a.nodes && 0 <= j < |a.nodes[m].inputs| && (m != n || j != k) ==> SameSlot(a, b, m, j)
  {
    var u := Use(n, k);
    var b := Arena(
      map v | v in a.values :: a.values[v].(uses := MovedUses(a.values[v].uses, u, r == Some(v))),
      a.nodes[n := a.nodes[n].(inputs := a.nodes[n].inputs[k := r])]);
    ReplaceInputKeepsSound(a, n, k, r, b);
    b
  }

  /** The use set of a value after the slot `u` is repointed: `u` leaves it,
      and joins it again when the value is the new target. */
  function MovedUses(uses: set<Use>, u: Use, target: bool): set<Use> {
    if target then (uses - {u}) + {u} else uses - {u}
  }

  lemma ReplaceInputKeepsSound(a: Arena, n: NodeId, k: nat, r: Option<ValueId>, b: Arena)
    requires Valid(a) && n in a.nodes && k < |a.nodes[n].inputs|
    requires r.Some? ==> r.value in a.values
    requires b.values == map v | v in a.values :: a.values[v].(uses := MovedUses(a.values[v].uses, Use(n, k), r == Some(v)))
    requires b.nodes == a.nodes[n := a.nodes[n].(inputs := a.nodes[n].inputs[k := r])]
    ensures UsesSound(b) && UsesComplete(b)
  {
    var u := Use(n, k);
    forall v, w | v in b.values && w in b.values[v].uses
      ensures Refers(b, w, v)
    {
      if w != u {
        assert w in a.values[v].uses;
        assert Refers(a, w, v);
      }
    }
    forall m, j | m in b.nodes && 0 <= j < |b.nodes[m].inputs| && b.nodes[m].inputs[j].Some?
      ensures b.nodes[m].inputs[j].value in b.values && Use(m, j) in b.values[b.nodes[m].inputs[j].value].uses
    {
      if m != n || j != k {
        assert b.nodes[m].inputs[j] == a.nodes[m].inputs[j];
      }
    }
  }

  /** The node with every input slot emptied. */
  function Unplugged(node: Node): (r: Node)
    ensures |r.inputs| == |node.inputs| && r == node.(inputs := r.inputs)
    ensures forall j :: 0 <= j < |r.inputs| ==> r.inputs[j].None?
  {
    node.(inputs := seq(|node.inputs|, _ => None))
  }

  /** Empties every input slot of every node in `ns` (what `replace_input_with(i, None)`
      on each slot does), dropping the matching uses, so that none of those
      nodes consumes any value any more. */
  function DisconnectNodes(a: Arena, ns: set<NodeId>): (b: Arena)
    requires Valid(a)
    ensures Valid(b) && SameLayout(a, b)
    ensures forall m, j :: m in ns && m in b.nodes && 0 <= j < |b.nodes[m].inputs| ==> b.nodes[m].inputs[j].None?
    ensures forall m, j :: m in a.nodes && m !in ns && 0 <= j < |a.nodes[m].inputs| ==> SameSlot(a, b, m, j)
  {
    var b := Arena(
      map v | v in a.values :: a.values[v].(uses := set u | u in a.values[v].uses && u.node !in ns),
      map m | m in a.nodes :: if m in ns then Unplugged(a.nodes[m]) else a.nodes[m]);
    assert UsesSound(b) by {
      forall v, w | v in b.values && w in b.values[v].uses
        ensures Refers(b, w, v)
      {
        assert Refers(a, w, v);
      }
    }
    assert UsesComplete(b) by {
      forall m, j | m in b.nodes && 0 <= j < |b.nodes[m].inputs| && b.nodes[m].inputs[j].Some?
        ensures b.nodes[m].inputs[j].value in b.values && Use(m, j) in b.values[b.nodes[m].inputs[j].value].uses
      {
        assert m !in ns;
        assert b.nodes[m].inputs[j] == a.nodes[m].inputs[j];
      }
    }
    b
  }
}

=== FILE: types.dfy ===
/** The native values a caller may hand to the attribute binder, and the
typed attribute records it produces.

Python decides what a value is by `isinstance`; here every kind of object the
binder distinguishes is a constructor of `Native`. */
module Types {
  import opened Outcomes

  /** Tensor element kinds (a subset of the IR's DataType enum). */
  datatype DataType = Float | Double | Int64 | Int32 | String | Bool | OtherDataType(code: nat)

  /** One dimension of a declared shape: a known size or a symbolic one. */
  datatype Dim = Fixed(size: nat) | Symbolic(symbol: Option<string>)

  type Shape = seq<Dim>

  /** Type descriptors: TensorType, SequenceType and OptionalType. */
  datatype TypeDesc = TensorType(elem: DataType) | SequenceType(inner: TypeDesc) | OptionalType(inner: TypeDesc)

  /** The attribute type tags of the IR (`AttributeType`). */
  datatype AttrType =
    | UNDEFINED | FLOAT | INT | STRING | TENSOR | GRAPH
    | FLOATS | INTS | STRINGS | TENSORS | GRAPHS
    | SPARSE_TENSOR | SPARSE_TENSORS | TYPE_PROTO | TYPE_PROTOS

  /** Externally encoded (protobuf) tensors and graphs; their content is only
      ever read by the external codec. */
  datatype TensorProto = TensorProto(wire: seq<int>)
  datatype GraphProto = GraphProto(wire: seq<int>)

  /** A node object as an element of a graph; only its identity matters here. */
  type NodeHandle = nat

  /** An in-memory graph. The IR's Graph is itself a Python Sequence of its nodes. */
  datatype GraphObj = GraphObj(name: Option<string>, nodes: seq<NodeHandle>)

  /** An in-memory tensor: element kind, dimensions, name and an opaque payload
      (the native value the array was built from). */
  datatype Tensor = Tensor(dtype: DataType, dims: seq<nat>, name: Option<string>, data: Native)

  /** A native value, one constructor per kind of object the binder tells apart.
      `PSeq` is a list or tuple; `PNode` is a graph node met while iterating a
      graph; `PNone` is Python's None. */
  datatype Native =
    | PInt(i: int)
    | PFloat(f: real)
    | PStr(s: string)
    | PAttr(attr: Attr)
    | PSeq(items: seq<Native>)
    | PTensor(tensor: Tensor)
    | PTensorProto(proto: TensorProto)
    | PGraph(graph: GraphObj)
    | PGraphProto(graphProto: GraphProto)
    | PTypeDesc(desc: TypeDesc)
    | PNode(node: NodeHandle)
    | PNone

  /** A typed attribute record. `refName` is present on a reference attribute,
      whose value is bound later inside a function body. */
  datatype Attr = Attr(name: string, typ: AttrType, value: Native, refName: Option<string>) {
    predicate IsRef() {
      refName.Some?
    }
  }

  /** The external codec that turns encoded tensors and graphs into native ones. */
  datatype Codec = Codec(decodeTensor: TensorProto -> Tensor, decodeGraph: GraphProto -> GraphObj)
}

=== FILE: value_mapping.dfy ===
/** `create_value_mapping`: a name-to-value projection of a graph.

The initializer dictionary is copied first; then graph inputs, then the
present inputs and the outputs of every node in traversal order are offered
in turn, and a value is added under its name unless the name is absent,
empty or already taken. The traversal order (the recursive graph iterator,
which also descends into subgraphs held by attributes) is a parameter. */
module ValueMapping {
  import opened Outcomes
  import opened Storage
  import opened Containers

  /** The values held by the occupied slots, in slot order. */
  function PresentInputs(inputs: seq<Option<ValueId>>): (r: seq<ValueId>)
    ensures forall x :: x in r <==> Some(x) in inputs
  {
    if |inputs| == 0 then []
    else
      var rest := PresentInputs(inputs[1..]);
      assert forall y :: y in inputs <==> y == inputs[0] || y in inputs[1..];
      if inputs[0].Some? then [inputs[0].value] + rest else rest
  }

  /** The values a traversal offers: for each node, its present inputs, then its outputs. */
  function NodeValues(a: Arena, traversal: seq<NodeId>): (r: seq<ValueId>)
    requires Valid(a)
    requires forall i :: 0 <= i < |traversal| ==> traversal[i] in a.nodes
    ensures forall i :: 0 <= i < |r| ==> r[i] in a.values
  {
    if |traversal| == 0 then []
    else
      var node := a.nodes[traversal[0]];
      var ins := PresentInputs(node.inputs);
      assert forall x :: x in ins ==> x in a.values by {
        forall x | x in ins ensures x in a.values {
          var k :| 0 <= k < |node.inputs| && node.inputs[k] == Some(x);
        }
      }
      ins + node.outputs + NodeValues(a, traversal[1..])
  }

  /** `v` carries the non-empty name `k`. */
  predicate Named(a: Arena, v: ValueId, k: string) {
    v in a.values && a.values[v].name == Some(k) && k != ""
  }

  /** `cands[i]` is the first of `cands` named `k`. */
  predicate FirstNamed(a: Arena, cands: seq<ValueId>, i: int, k: string) {
    0 <= i < |cands| && Named(a, cands[i], k) && forall j :: 0 <= j < i ==> !Named(a, cands[j], k)
  }

  /** `create_value_mapping`. Initializers keep their entries; any other key
      is the non-empty name of an offered value, mapped to the first value
      offered under that name; every such name gets a key. */
  method CreateValueMapping(c: Container, traversal: seq<NodeId>) returns (m: map<string, ValueId>)
    requires WellFormed(c)
    requires forall i :: 0 <= i < |traversal| ==> traversal[i] in c.arena.nodes
    ensures forall k :: k in c.initializers ==> k in m && m[k] == c.initializers[k]
    ensures var cands := c.inputs + NodeValues(c.arena, traversal);
            forall k :: k in m <==> k in c.initializers || exists i :: 0 <= i < |cands| && Named(c.arena, cands[i], k)
    ensures var cands := c.inputs + NodeValues(c.arena, traversal);
            forall k :: k in m && k !in c.initializers ==> k != "" && exists i :: FirstNamed(c.arena, cands, i, k) && m[k] == cands[i]
  {
    var cands := c.inputs + NodeValues(c.arena, traversal);
    m := c.initializers;
    var i := 0;
    while i < |cands|
      invariant 0 <= i <= |cands|
      invariant forall k :: k in c.initializers ==> k in m && m[k] == c.initializers[k]
      invariant forall k :: k in m <==> k in c.initializers || exists j :: 0 <= j < i && Named(c.arena, cands[j], k)
      invariant forall k :: k in m && k !in c.initializers ==> k != "" && exists j :: FirstNamed(c.arena, cands, j, k) && j < i && m[k] == cands[j]
    {
      var v := cands[i];
      var name := c.arena.values[v].name;
      if name.Some? && name.value != "" && name.value !in m {
        assert FirstNamed(c.arena, cands, i, name.value);
        m := m[name.value := v];
      }
      i := i + 1;
    }
    assert cands == c.inputs + NodeValues(c.arena, traversal);
  }
}
